=== FILE: README.md ===
# Price watcher: a Dafny model of the price normaliser and the check loop

`price_watcher.py` is a small script. It reads a product list, fetches each
product page, selects the price element with a CSS selector, and turns the
price text into a number with `parse_price`. It records every check in a
price history and reports an alert when a current price is at or below the
product's target price.

This project models the following parts of the script:

- `parse_price`, in full. Cleaning is the strip, the regex that keeps digits,
  `,`, `.` and whitespace, the second strip and the deletion of `' '`.
  Disambiguation is the choice of decimal separator by last occurrence, with
  the split/join rules for repeated separators. The conversion is `float()`
  on what is left.
- `fetch_price`. It classifies a check into a price and a status.
- The loop of `run_once`. It folds over the product list, appends one
  history row per product and computes the alert flag.
- `record`, modelled only as appending a row to a sequence.

The modules follow the script's layers:

| file | module | contents |
|---|---|---|
| `wrappers.dfy` | `Wrappers` | `Option` and `Result` |
| `text.dfy` | `Text` | `str.isspace`, `strip`, `replace`, `count`, `rfind`, `split`, `"".join`, and lemmas about them |
| `decimals.dfy` | `Decimals` | the exact `Decimal` result, and `float()` on digits, points and whitespace |
| `price.dfy` | `PriceText` | `parse_price` as written, the independent `Reference` meaning of a price text, and the theorems connecting them |
| `price_spaces.dfy` | `PriceSpaces` | whitespace that survives cleaning |
| `watcher.dfy` | `Watcher` | `fetch_price`, the history rows, `run_once` and the alert test |
| `price_cases.dfy` | `PriceCases` | the texts named in the script's docstring and comments, and the traps around them |

## How to read the main results

`Reference(t)` takes every digit of `t`, in order, as one integer. It scales
that integer down by the number of digits after the last separator. A text
has no price when it has no digit, or when both separator kinds occur and
the kind that occurs last occurs more than once.

- `ParsePriceSound` shows that every successful parse equals the reference.
- `ParsePriceComplete` shows that the parse equals the reference on every
  text whose only whitespace is `' '`, failures included.
- Other whitespace can make a parse fail. Cleaning deletes only `' '`.
  `ParsePriceInnerWhitespace` shows that a tab, a no-break space or a
  similar character between two digits always gives `None`.
- Such a character at the edge of what is left is not always fatal.
  `float()` skips the ASCII whitespace 9-13 and 32. It also skips
  non-ASCII whitespace, which it first turns into `' '`. So `",\t5.0"`
  parses as 5.0 (`PriceCases.TabSkipped`). It does not skip the separators
  U+001C-U+001F, which `str.isspace` counts as whitespace. So `",\x1c5.0"`
  has no price (`PriceCases.SeparatorNotSkipped`).

## Model

| member | source | states |
|---|---|---|
| PriceText.ParsePrice | price_watcher.py:44-82 | An absent text gives no price. Otherwise the text is cleaned, disambiguated and converted, branch for branch as in the source. The lemmas below state what the result means. |
| PriceText.Clean | price_watcher.py:48-51 | What cleaning leaves holds only digits, separators and whitespace other than the space character. |
| PriceText.CleanSkeleton | price_watcher.py:48-51 | Cleaning keeps every digit and every separator of the text, in their order. |
| PriceText.ParsePriceSound | price_watcher.py:44-82 | For every text, a successful parse equals the reference value. That value is all digits in order, scaled by the number of digits after the last separator. |
| PriceText.ParsePriceComplete | price_watcher.py:44-82 | If the text's only whitespace is the space character, the parse equals the reference, failures included. |
| PriceText.ParsePriceDigits | price_watcher.py:44-82 | A parsed price has every digit of the text as its mantissa. Its scale is the number of digits after the last separator. |
| PriceText.ParsePriceFails | price_watcher.py:79-82 | A text without digits, or whose last separator kind repeats while the other kind is present, gives no price. This is a returned value, never an exception. |
| PriceText.ParsePriceLastSeparator | price_watcher.py:53-82 | For a text whose only whitespace is the space character: split the text at its last separator. The result is the digits before that separator followed by the digits after it, with the digits after it as the fraction. The text is rejected when it has no digit or when the part before that separator holds both kinds. |
| PriceText.ParsePriceWhole | price_watcher.py:62-82 | For a text whose only whitespace is the space character: a text without separators is the whole number made of its digits. A text with no digits has no price. |
| PriceText.ParsePriceFixedPoint | price_watcher.py:53-82 | A text of digits with at most one point goes through unchanged and is converted as it is. |
| PriceText.DisambiguatePlain | price_watcher.py:53-77 | Disambiguation leaves a text of digits with at most one point unchanged. |
| PriceText.NormalisedAlphabet | price_watcher.py:48-77 | Only digits, points and whitespace reach `float()`. No comma, sign, exponent, `inf`, `nan` or underscore ever does. |
| PriceText.DisambiguateAlphabet | price_watcher.py:53-77 | Disambiguating a cleaned text leaves only digits, points and whitespace. Every comma is gone. |
| PriceText.SkeletonCommutes | price_watcher.py:53-77 | The digits and separators after disambiguation equal the disambiguation of the digits and separators. Whitespace never steers a branch. |
| PriceText.SkeletonParse | price_watcher.py:53-82 | On a text of digits and separators, disambiguating and converting gives exactly the reference value. |
| PriceText.DisagreeingPoints | price_watcher.py:54-61 | Suppose both kinds occur and the kind that occurs last repeats. Then at least two points reach `float()`. |
| PriceText.KeepLastSplit | price_watcher.py:66-69 | Splitting at a separator and joining all pieces but the last with a point gives three parts: the text before the last separator with that separator deleted, then a point, then the text after it. |
| PriceText.SuccessIgnoresWhitespace | price_watcher.py:79-82 | If the conversion succeeds, deleting the whitespace from its argument does not change the result. |
| PriceText.ReferenceAtLastSeparator | price_watcher.py:53-77 | This is the reference value's closed form at the last separator, the same form that ParsePriceLastSeparator proves for the parse. |
| Decimals.PointLiteral | price_watcher.py:79-82 | `float()` of digits, a point and digits is all the digits read as one integer, scaled by the digits after the point. There is no number when there are no digits at all. |
| Decimals.IntegerLiteral | price_watcher.py:79-82 | `float()` of plain digits is their integer value. Of the empty text it is a `ValueError`. |
| Decimals.TwoPointsRejected | price_watcher.py:79-82 | A text with two or more points is never a number, whatever whitespace it holds. |
| Decimals.ToDecimalShape | price_watcher.py:79-82 | A successful conversion saw a decimal literal that is a slice of its argument, with only skipped whitespace around it. |
| Decimals.ToDecimalPadded | price_watcher.py:79-82 | Whitespace that `float()` skips, on either side of a literal, does not change the result. |
| Decimals.DigitsValueConcat | price_watcher.py:79-82 | The value of two digit strings put together is the first value shifted by the second string's length, plus the second value. |
| PriceSpaces.ParsePriceInnerWhitespace | price_watcher.py:48-82 | Whitespace other than the space character between two digits makes the parse return no price. |
| PriceSpaces.CleanKeepsStray | price_watcher.py:48-51 | Cleaning keeps every whitespace character other than the space character that has digits on both sides, in its place among the digits: from the first digit to the last, the digits and such whitespace are the same before and after cleaning. |
| PriceSpaces.DisambiguateFilter | price_watcher.py:53-77 | Disambiguation changes only separators. Any view of the text that ignores both separators sees no change. |
| PriceSpaces.ConvertedHasNoStray | price_watcher.py:79-82 | A text that `float()` accepts has no whitespace other than the space character between two of its digits. |
| Watcher.FetchPrice | price_watcher.py:113-126 | A check has a price exactly when its status is `ok`. |
| Watcher.FetchPriceOutcomes | price_watcher.py:113-126 | These are the four outcomes, in the order the source tests them. A fetch failure gives `fetch_error` with its cause and no parse. A missing element gives `selector_not_found`. An unparsable text gives `parse_failed`. Otherwise the price is the reference value of the element's text and the status is `ok`. |
| Watcher.StatusTextOk | price_watcher.py:150-152 | A status reads as `"ok"` exactly when the check succeeded, so the test `status != "ok"` singles out the failures. |
| Watcher.StatusTextInjective | price_watcher.py:118-126 | Different statuses are recorded as different texts. |
| Watcher.DisplayName | price_watcher.py:143 | The recorded name is the product's own name when that is present and non-empty, and the url otherwise. |
| Watcher.Observe | price_watcher.py:142-148 | A row records the product's url, selector and target, its display name, and exactly the price and status that `fetch_price` returns for it. |
| Watcher.ObserveMeaning | price_watcher.py:113-126 | A row's status is `ok` exactly when the element was found and its text parses, and then its price is the reference value of that text. Its status is `fetch_error` exactly when the fetch failed, and `selector_not_found` exactly when the fetch succeeded but no element matched. |
| Watcher.CheckAll | price_watcher.py:141-157 | The loop records one row per product, in list order, each row the check of its product. Its alert flag is set exactly when some recorded row alerts. |
| Watcher.RowAlerts | price_watcher.py:150-157 | The rows of a run alert exactly when some product does. |
| Watcher.RunOnce | price_watcher.py:136-157 | A missing or empty product list ends the run with the history untouched. Otherwise the old history is kept as a prefix, and one row per product is appended in list order whatever the status. The run alerts exactly when some product alerts. |
| Watcher.AlertMeaning | price_watcher.py:150-156 | A product alerts exactly when four things hold. The page and the element were found. The text parses, to its reference value. A target was given. The price is at or below the target. |
| Watcher.NoTargetNoAlert | price_watcher.py:155 | A product without a target never alerts. |
| Watcher.RunRecordsEveryProduct | price_watcher.py:142-148 | Every run over a non-empty list records each product's url and display name, whatever the checks find. |
| PriceCases.UsThousands | price_watcher.py:45 | `"$1,234.56"` is 1234.56. |
| PriceCases.EuropeanThousands | price_watcher.py:45 | `"1.234,56"` is 1234.56. |
| PriceCases.CurrencyPrefix | price_watcher.py:49-50 | `"US$ 2.500,00"` is 2500.00. The letters, the sign and the space are deleted. |
| PriceCases.LoneComma | price_watcher.py:64-71 | `"123,45"` is 123.45. A single comma is the decimal point. |
| PriceCases.RepeatedPoints | price_watcher.py:73-77 | `"1.234.567"` is 1234.567, not 1234567. Only the last point survives. |
| PriceCases.SecondDecimalComma | price_watcher.py:54-58 | `"1.234,5,6"` has no price. Both commas become points. |
| PriceCases.EmptyText | price_watcher.py:79-82 | The empty text has no price. |
| PriceCases.OnlySeparator | price_watcher.py:79-82 | `","` has no price. |
| PriceCases.TabSkipped | price_watcher.py:48-61 | `",\t5.0"` is 5.0. The tab survives cleaning, but it ends up in front of the number, where `float()` skips it. |
| PriceCases.SeparatorNotSkipped | price_watcher.py:79-82 | `",\x1c5.0"` has no price. U+001C survives cleaning and is not skipped by `float()`. |
| PriceCases.AlertAt | price_watcher.py:150-156 | A check that finds a parsable text succeeds. It alerts exactly when the price is at or below the target. |
| PriceCases.AlertUnderTarget | price_watcher.py:155-156 | A product whose element reads `"US$ 2.500,00"` alerts for a target of 3000. |
| PriceCases.NoAlertOverTarget | price_watcher.py:155 | The same product does not alert for a target of 2000, though its check succeeds. |

## Left out

- Unicode digits. `IsDigit` accepts only the ASCII digits `0`-`9`. The
  regex class `\d` at line 50 also keeps the other Unicode decimal digits,
  and `float()` accepts them. The model deletes them in cleaning.
- Float rounding. The result is an exact `Decimal`, not a binary float.
  The model therefore does not round at line 80, and it never produces the
  `inf` that `float()` gives for a very long digit string. The comparison
  with the target at line 155 is on exact values.
- The inputs of `float()` that cannot reach it. Signs, exponents, `inf`,
  `nan` and underscores are not modelled. `PriceText.NormalisedAlphabet`
  shows that none of them survives cleaning.
- `record` writes a timestamp and one SQLite row. The model appends an
  `Observation` without the timestamp. `ensure_db`, the connections and
  write failures are not modelled.
- The configuration file is not modelled: its existence test, YAML
  parsing, `print`, `sys.exit` and the messages. `RunOnce` takes the
  product list as a parameter, `None` when it is missing or null. Its
  `NoProducts` outcome stands for the exit at lines 137-139.
- Configuration entries that are not modelled:
  - a product without `url` or `selector`, for which the source raises
    `KeyError` at lines 144-145;
  - a `target_price` that `float()` cannot convert;
  - a `name` value that is not a string.
- The network and the HTML parser are not modelled. `requests.get` with
  its headers and timeout, `raise_for_status`, BeautifulSoup and
  `select_one` are the parameters `fetch` and `select` of
  `Watcher.FetchPrice`. `fetch` gives the page or the text of the
  exception. `select` gives the text of the first matching element, if
  there is one, as `get_text(strip=True)` builds it: each text node
  stripped on its own and the pieces joined with no separator.
- Watcher.RunOnce: `fetch` is a function of the url alone, so two products
  with the same url get the same outcome in one run. The source fetches
  each product anew at line 115 and can get different answers.
- Watcher.RunOnce: `select` is total, so the model does not stop on a CSS
  selector that `select_one` cannot parse. In the source that raises
  soupsieve's `SelectorSyntaxError` at line 120. Nothing catches it, so
  `run_once` ends after recording only the products before that one. The
  one-row-per-product promise holds only for runs without such a selector.
- Printed output is not modelled: the error, price and alert lines of the
  loop. The alert flag that `Watcher.RunOnce` returns stands for the final
  "No alerts this run." message.

=== FILE: decimals.dfy ===
/**
 Exact decimal numbers and the model of Python's `float()` on the strings
 the price normaliser can hand it.
 */
module Decimals {
  import opened Wrappers
  import opened Text

  /** `mantissa / 10^scale`, exactly: "12.50" is `Decimal(1250, 2)`. The model
      uses it instead of a binary float. */
  datatype Decimal = Decimal(mantissa: nat, scale: nat) {

    /** The number this decimal denotes; never negative. */
    function Value(): (v: real)
      ensures v >= 0.0
      ensures v == 0.0 <==> mantissa == 0
    {
      mantissa as real / Pow10(scale) as real
    }
  }

  function Pow10(n: nat): (p: nat)
    ensures p >= 1
  {
    if n == 0 then 1 else 10 * Pow10(n - 1)
  }

  predicate AllDigits(s: string) {
    forall i :: 0 <= i < |s| ==> IsDigit(s[i])
  }

  function DigitValue(ch: char): (d: nat)
    requires IsDigit(ch)
    ensures d <= 9
  {
    ch as int - '0' as int
  }

  /** The number a string of digits spells, most significant digit first;
      it always fits in as many decimal places as there are digits. */
  function DigitsValue(s: string): (v: nat)
    requires AllDigits(s)
    ensures v < Pow10(|s|)
  {
    if s == [] then 0
    else
      var v' := DigitsValue(s[..|s| - 1]);
      assert v' + 1 <= Pow10(|s| - 1);
      10 * v' + DigitValue(s[|s| - 1])
  }

  /** Appending a digit shifts the value one place and adds the digit. */
  lemma DigitsValueSnoc(s: string, d: char)
    requires AllDigits(s) && IsDigit(d)
    ensures AllDigits(s + [d])
    ensures DigitsValue(s + [d]) == 10 * DigitsValue(s) + DigitValue(d)
  {
    assert (s + [d])[..|s|] == s;
  }

  /** Digits written after others shift those up by their own count. */
  lemma {:induction false} DigitsValueConcat(a: string, b: string)
    requires AllDigits(a) && AllDigits(b)
    ensures AllDigits(a + b)
    ensures DigitsValue(a + b) == DigitsValue(a) * Pow10(|b|) + DigitsValue(b)
    decreases |b|
  {
    if b == [] {
      assert a + b == a;
    } else {
      var init, d := b[..|b| - 1], b[|b| - 1];
      assert b == init + [d];
      assert a + b == (a + init) + [d];
      DigitsValueConcat(a, init);
      DigitsValueSnoc(a + init, d);
      DigitsValueSnoc(init, d);
      assert Pow10(|b|) == 10 * Pow10(|init|);
      Shift(DigitsValue(a), Pow10(|init|), DigitsValue(init), DigitValue(d));
    }
  }

  lemma Shift(x: int, p: int, y: int, d: int)
    ensures 10 * (x * p + y) + d == x * (10 * p) + (10 * y + d)
  {
  }

  /** The digits of `s`, in order. */
  function DigitsOf(s: string): (r: string)
    ensures AllDigits(r)
  {
    Filter(s, IsDigit)
  }

  /** The strings `float()` accepts among those made of digits and points:
      at most one point and at least one digit (`"5."`, `".5"` and `"5"` are
      all accepted; `"."` and `"1.2.3"` are not). */
  predicate IsDecimalLiteral(s: string) {
    && (forall i :: 0 <= i < |s| ==> IsDigit(s[i]) || s[i] == '.')
    && Count(s, '.') <= 1
    && DigitsOf(s) != []
  }

  /** Number of characters after the point of a literal, 0 without one. */
  function FractionLength(s: string): nat {
    if '.' in s then |s| - 1 - Find(s, '.') else 0
  }

  /** The whitespace `float()` skips at the ends of what it parses: the
      characters 9-13 and the space (CPython's `Py_ISSPACE`). The separators
      28-31, which `str.isspace` counts as whitespace, are not skipped. */
  predicate IsFloatSpace(ch: char) {
    var n := ch as int;
    n == 32 || 9 <= n <= 13
  }

  /** A whitespace character outside ASCII, which `float()` first turns into ' '. */
  predicate IsWideSpace(ch: char) {
    ch as int >= 127 && IsSpace(ch)
  }

  /** What `float()` skips at either end of its argument. */
  predicate IsFloatBlank(ch: char) {
    IsFloatSpace(ch) || IsWideSpace(ch)
  }

  /** The text `float()` parses: every non-ASCII whitespace character
      replaced by ' ', ASCII characters left as they are. */
  function FloatText(s: string): (r: string)
    ensures |r| == |s|
    ensures forall i :: 0 <= i < |s| ==> r[i] == if IsWideSpace(s[i]) then ' ' else s[i]
  {
    if s == [] then [] else [if IsWideSpace(s[0]) then ' ' else s[0]] + FloatText(s[1..])
  }

  /** Python's `float(s)` on strings of digits, points and whitespace:
      the ends are trimmed of what `float()` skips, and what remains must be
      a decimal literal; anything else is the `ValueError` that the caller
      turns into `None`. Signs, exponents, `inf`, `nan` and underscores
      cannot reach it in this model (see `PriceText.NormalisedAlphabet`). */
  function ToDecimal(s: string): Option<Decimal> {
    var core := StripWith(FloatText(s), IsFloatSpace);
    if IsDecimalLiteral(core) then Some(Decimal(DigitsValue(DigitsOf(core)), FractionLength(core)))
    else None
  }

  /** A successful conversion saw a decimal literal with nothing but skipped
      whitespace around it. */
  lemma ToDecimalShape(s: string, core: string, lo: nat)
    requires ToDecimal(s).Some?
    requires core == StripWith(FloatText(s), IsFloatSpace) && lo == Leading(FloatText(s), IsFloatSpace)
    ensures lo + |core| <= |s| && s == s[..lo] + core + s[lo + |core|..]
    ensures IsDecimalLiteral(core)
    ensures forall i :: 0 <= i < lo ==> IsFloatBlank(s[i])
    ensures forall i :: lo + |core| <= i < |s| ==> IsFloatBlank(s[i])
  {
    ToDecimalLiteral(s);
    FloatCore(s, FloatText(s), core, lo);
    FloatEdges(s, FloatText(s), core, lo);
    SliceThree(s, lo, lo + |core|);
  }

  /** The literal `float()` accepted is a slice of its argument. */
  lemma FloatCore(s: string, f: string, core: string, lo: nat)
    requires f == FloatText(s) && core == StripWith(f, IsFloatSpace) && lo == Leading(f, IsFloatSpace)
    requires IsDecimalLiteral(core)
    ensures lo + |core| <= |s| && s[lo..lo + |core|] == core
  {
    FloatCoreSlice(s, f, core, lo);
  }

  lemma FloatCoreSlice(s: string, f: string, core: string, lo: nat)
    requires f == FloatText(s) && core == StripWith(f, IsFloatSpace) && lo == Leading(f, IsFloatSpace)
    requires forall i :: 0 <= i < |core| ==> IsDigit(core[i]) || core[i] == '.'
    ensures lo + |core| <= |s| && s[lo..lo + |core|] == core
  {
    StripSlice(f, IsFloatSpace, core, lo);
    FloatCoreChars(s, f, core, lo);
  }

  /** Conversion succeeds exactly on a literal core. */
  lemma ToDecimalLiteral(s: string)
    requires ToDecimal(s).Some?
    ensures IsDecimalLiteral(StripWith(FloatText(s), IsFloatSpace))
  {
  }

  /** Digits and points come through `FloatText` unchanged, so a run of
      them in the converted text is the same run in the original. */
  lemma FloatCoreChars(s: string, f: string, core: string, lo: nat)
    requires f == FloatText(s) && lo + |core| <= |f| && core == f[lo..lo + |core|]
    requires forall i :: 0 <= i < |core| ==> IsDigit(core[i]) || core[i] == '.'
    ensures s[lo..lo + |core|] == core
  {
    forall i | 0 <= i < |core| ensures s[lo + i] == core[i] {
      FloatTextAt(s, lo + i);
    }
  }

  /** What `float()` trims off its argument is whitespace it skips. */
  lemma FloatEdges(s: string, f: string, core: string, lo: nat)
    requires f == FloatText(s) && core == StripWith(f, IsFloatSpace) && lo == Leading(f, IsFloatSpace)
    ensures forall i :: 0 <= i < lo ==> IsFloatBlank(s[i])
    ensures forall i :: lo + |core| <= i < |s| ==> IsFloatBlank(s[i])
  {
    StripShape(f, IsFloatSpace);
    forall i | 0 <= i < |s| && (i < lo || lo + |core| <= i) ensures IsFloatBlank(s[i]) {
      FloatTextAt(s, i);
    }
  }

  /** Each character of `FloatText` is the original one, or ' ' in place
      of a non-ASCII whitespace character. */
  lemma FloatTextAt(s: string, i: nat)
    requires i < |s|
    ensures FloatText(s)[i] == if IsWideSpace(s[i]) then ' ' else s[i]
  {
  }

  /** Whatever `float()` accepts is digits, points and skipped whitespace. */
  lemma ToDecimalAlphabet(s: string)
    requires ToDecimal(s).Some?
    ensures forall i :: 0 <= i < |s| ==> IsDigit(s[i]) || s[i] == '.' || IsFloatBlank(s[i])
  {
    var core, lo := StripWith(FloatText(s), IsFloatSpace), Leading(FloatText(s), IsFloatSpace);
    ToDecimalShape(s, core, lo);
    forall i | lo <= i < lo + |core| ensures IsDigit(s[i]) || s[i] == '.' {
      assert s[i] == core[i - lo];
    }
  }

  /** Whitespace `float()` skips around a literal changes nothing. */
  lemma ToDecimalPadded(w1: string, s: string, w2: string)
    requires forall i :: 0 <= i < |s| ==> IsDigit(s[i]) || s[i] == '.'
    requires forall i :: 0 <= i < |w1| ==> IsFloatBlank(w1[i])
    requires forall i :: 0 <= i < |w2| ==> IsFloatBlank(w2[i])
    ensures ToDecimal(w1 + s + w2) == ToDecimal(s)
  {
    FloatTextConcat(w1, s, w2);
    FloatTextOfBlanks(w1);
    FloatTextOfBlanks(w2);
    NoSpaceInLiteralChars(s);
    FloatTextOfLiteral(s);
    StripAround(FloatText(w1), s, FloatText(w2), IsFloatSpace);
    assert StripWith(FloatText(w1 + s + w2), IsFloatSpace) == s;
    NoSpaceConverted(s);
  }

  /** `FloatText` works character by character. */
  lemma FloatTextConcat(a: string, b: string, c: string)
    ensures FloatText(a + b + c) == FloatText(a) + FloatText(b) + FloatText(c)
  {
    FloatTextAppend(a, b);
    FloatTextAppend(a + b, c);
  }

  lemma FloatTextAppend(a: string, b: string)
    ensures FloatText(a + b) == FloatText(a) + FloatText(b)
  {
    var t, g := a + b, FloatText(a) + FloatText(b);
    assert |g| == |t|;
    forall i | 0 <= i < |t| ensures FloatText(t)[i] == g[i] {
      FloatTextAt(t, i);
      if i < |a| {
        FloatTextAt(a, i);
        assert t[i] == a[i] && g[i] == FloatText(a)[i];
      } else {
        FloatTextAt(b, i - |a|);
        assert t[i] == b[i - |a|] && g[i] == FloatText(b)[i - |a|];
      }
    }
  }

  lemma FloatTextOfBlanks(w: string)
    requires forall i :: 0 <= i < |w| ==> IsFloatBlank(w[i])
    ensures forall i :: 0 <= i < |w| ==> IsFloatSpace(FloatText(w)[i])
  {
    forall i | 0 <= i < |w| ensures IsFloatSpace(FloatText(w)[i]) {
      FloatTextAt(w, i);
    }
  }

  /** Characters that are not whitespace reach `float()` unchanged. */
  lemma FloatTextOfLiteral(s: string)
    requires forall i :: 0 <= i < |s| ==> !IsSpace(s[i])
    ensures FloatText(s) == s
  {
    forall i | 0 <= i < |s| ensures FloatText(s)[i] == s[i] {
      FloatTextAt(s, i);
    }
  }

  /** A point between two digit strings: the number is all the digits read
      as one integer, scaled by the digits after the point. */
  lemma PointLiteral(a: string, b: string)
    requires AllDigits(a) && AllDigits(b)
    ensures ToDecimal(a + "." + b) ==
      if a + b == [] then None else Some(Decimal(DigitsValue(a + b), |b|))
  {
    PointLiteralShape(a, b);
    PointLiteralDigits(a, b);
    assert '.' !in a && '.' !in b;
    PointLiteralCount(a, b);
    PointLiteralFraction(a, b);
    LiteralToDecimal(a + "." + b);
  }

  /** A literal with nothing around it converts to its digits and fraction length. */
  lemma LiteralToDecimal(s: string)
    requires forall i :: 0 <= i < |s| ==> IsDigit(s[i]) || s[i] == '.'
    ensures ToDecimal(s) ==
      if Count(s, '.') <= 1 && DigitsOf(s) != [] then Some(Decimal(DigitsValue(DigitsOf(s)), FractionLength(s)))
      else None
  {
    NoSpaceInLiteralChars(s);
    NoSpaceConverted(s);
  }

  /** Text without whitespace reaches the literal check as it is. */
  lemma NoSpaceConverted(s: string)
    requires forall i :: 0 <= i < |s| ==> !IsSpace(s[i])
    ensures StripWith(FloatText(s), IsFloatSpace) == s
  {
    FloatTextOfLiteral(s);
    StripNoSpace(s, IsFloatSpace);
  }

  lemma PointLiteralShape(a: string, b: string)
    requires AllDigits(a) && AllDigits(b)
    ensures var s := a + "." + b;
      forall i :: 0 <= i < |s| ==> IsDigit(s[i]) || s[i] == '.'
  {
    var s := a + "." + b;
    forall i | 0 <= i < |s| ensures IsDigit(s[i]) || s[i] == '.' {
      if i < |a| { assert s[i] == a[i]; }
      else if i > |a| { assert s[i] == b[i - |a| - 1]; }
    }
  }

  lemma PointLiteralDigits(a: string, b: string)
    requires AllDigits(a) && AllDigits(b)
    ensures DigitsOf(a + "." + b) == a + b
  {
    FilterAll(a, IsDigit);
    FilterAll(b, IsDigit);
    FilterConcat(a + ".", b, IsDigit);
    FilterConcat(a, ".", IsDigit);
    FilterNone(".", IsDigit);
  }

  lemma PointLiteralFraction(a: string, b: string)
    requires '.' !in a && '.' !in b
    ensures FractionLength(a + "." + b) == |b|
  {
    assert a + "." + b == a + ("." + b);
    FindConcat(a, "." + b, '.');
  }

  lemma PointLiteralCount(a: string, b: string)
    requires '.' !in a && '.' !in b
    ensures Count(a + "." + b, '.') == 1
  {
    CountConcat(a + ".", b, '.');
    CountConcat(a, ".", '.');
  }

  /** Plain digits are an integer. */
  lemma IntegerLiteral(a: string)
    requires AllDigits(a)
    ensures ToDecimal(a) == if a == [] then None else Some(Decimal(DigitsValue(a), 0))
  {
    assert '.' !in a;
    LiteralToDecimal(a);
    FilterAll(a, IsDigit);
  }

  lemma NoSpaceInLiteralChars(s: string)
    requires forall i :: 0 <= i < |s| ==> IsDigit(s[i]) || s[i] == '.'
    ensures forall i :: 0 <= i < |s| ==> !IsSpace(s[i])
  {
  }

  /** Two points are never a number, whatever whitespace surrounds them. */
  lemma TwoPointsRejected(s: string)
    requires Count(s, '.') >= 2
    ensures ToDecimal(s) == None
  {
    var f := FloatText(s);
    CountFloatText(s);
    var h, t := StripParts(f, IsFloatSpace);
    var core := StripWith(f, IsFloatSpace);
    BlanksHaveNoPoint(h);
    BlanksHaveNoPoint(t);
    CountConcat(h + core, t, '.');
    CountConcat(h, core, '.');
    assert Count(core, '.') >= 2;
  }

  /** Mapping wide whitespace to ' ' keeps every point. */
  lemma {:induction false} CountFloatText(s: string)
    ensures Count(FloatText(s), '.') == Count(s, '.')
  {
    if s != [] {
      var f := FloatText(s);
      assert f == [f[0]] + FloatText(s[1..]);
      CountConcat([f[0]], FloatText(s[1..]), '.');
      assert s == [s[0]] + s[1..];
      CountConcat([s[0]], s[1..], '.');
      CountFloatText(s[1..]);
    }
  }

  lemma BlanksHaveNoPoint(w: string)
    requires forall i :: 0 <= i < |w| ==> IsFloatSpace(w[i])
    ensures Count(w, '.') == 0
  {
    assert forall i :: 0 <= i < |w| ==> w[i] != '.';
  }
}

=== FILE: price.dfy ===
/**
 The price-text normaliser `parse_price`: cleaning, decimal-separator
 disambiguation and the final conversion, together with an independent
 reference definition of what a successful parse yields and the theorems
 connecting the two.
 */
module PriceText {
  import opened Wrappers
  import opened Text
  import opened Decimals

  // ---------------------------------------------------------------------
  // The normaliser as written
  // ---------------------------------------------------------------------

  /** The characters the cleaning regex keeps: digits, `,`, `.` and whitespace. */
  predicate IsPriceChar(ch: char) {
    IsDigit(ch) || IsSeparator(ch) || IsSpace(ch)
  }

  /** Whitespace that cleaning does not delete: anything but the space
      character ' '. */
  predicate IsStraySpace(ch: char) {
    IsSpace(ch) && ch != ' '
  }

  /** The only whitespace of `s`, if any, is the space character. */
  predicate NoStray(s: string) {
    forall i :: 0 <= i < |s| ==> !IsStraySpace(s[i])
  }

  /** Strip, delete every character that is not a price character, strip
      again, then delete the space character ' ' (and only it). What is left
      is digits, separators and whitespace other than ' ' -- a tab or a
      no-break space inside the text survives. */
  function Clean(text: string): (s: string)
    ensures forall i :: 0 <= i < |s| ==> IsPriceChar(s[i]) && s[i] != ' '
  {
    var kept := Filter(Strip(text), IsPriceChar);
    StripKeeps(kept, IsSpace, IsPriceChar);
    RemoveKeeps(Strip(kept), ' ', IsPriceChar);
    Remove(Strip(kept), ' ')
  }

  /** `"".join(parts[:-1]) + "." + parts[-1]` where `parts = s.split(sep)`. */
  function KeepLastAsPoint(s: string, sep: char): string {
    var parts := Split(s, sep);
    Concat(parts[..|parts| - 1]) + "." + parts[|parts| - 1]
  }

  /** The separator rules, branch for branch: when both separators occur the
      later one is the decimal point (all commas become points, or all commas
      are deleted); otherwise a comma-only text has its last comma made the
      point, and a text with several points keeps only the last one. */
  function Disambiguate(s: string): string {
    if ',' in s && '.' in s then
      if RFind(s, ',') > RFind(s, '.') then Replace(Remove(s, '.'), ',', '.')
      else Remove(s, ',')
    else
      var s1 :=
        if ',' in s && '.' !in s then
          if Count(s, ',') > 1 then KeepLastAsPoint(s, ',') else Replace(s, ',', '.')
        else s;
      if '.' in s1 && Count(s1, '.') > 1 then KeepLastAsPoint(s1, '.') else s1
  }

  /** `parse_price`: absent text gives `None`; otherwise clean, disambiguate
      and convert, a failed conversion giving `None`. */
  function ParsePrice(text: Option<string>): (r: Option<Decimal>)
    ensures text.None? ==> r.None?
  {
    match text
    case None => None
    case Some(t) => ToDecimal(Disambiguate(Clean(t)))
  }

  // ---------------------------------------------------------------------
  // The reference definition
  // ---------------------------------------------------------------------

  predicate IsDigitOrSeparator(ch: char) {
    IsDigit(ch) || IsSeparator(ch)
  }

  /** The digits and separators of `s`, in order: all the heuristics look at. */
  function Skeleton(s: string): (k: string)
    ensures forall i :: 0 <= i < |k| ==> IsDigitOrSeparator(k[i])
  {
    Filter(s, IsDigitOrSeparator)
  }

  /** The last separator of `s` and the text after it, when `s` has one. */
  function LastSeparator(s: string): (r: Option<(char, string)>)
    ensures r.None? <==> ',' !in s && '.' !in s
    ensures r.Some? ==>
      var (sep, tail) := r.value;
      && IsSeparator(sep) && |tail| < |s|
      && s[|s| - |tail| - 1] == sep && s[|s| - |tail|..] == tail
      && ',' !in tail && '.' !in tail
  {
    if s == [] then None
    else
      var last := s[|s| - 1];
      assert s == s[..|s| - 1] + [last];
      if IsSeparator(last) then Some((last, []))
      else
        match LastSeparator(s[..|s| - 1])
        case None => None
        case Some((sep, tail)) => Some((sep, tail + [last]))
  }

  /** When both separators occur, the kind that occurs last occurs once: it
      is the one decimal point and the other kind only groups thousands. */
  predicate SeparatorsAgree(s: string) {
    (',' in s && '.' in s) ==>
      match LastSeparator(s)
      case Some((sep, _)) => Count(s, sep) == 1
      case None => false
  }

  /** The number of digits after the last separator, 0 without one. */
  function DecimalPlaces(s: string): nat {
    match LastSeparator(s)
    case None => 0
    case Some((_, tail)) => |DigitsOf(tail)|
  }

  /** What a price text means: all its digits in order read as one integer,
      scaled down by the digits after its last separator; no digits at all,
      or a last separator whose kind occurs again while the other kind is
      also present, means no price. */
  function Reference(t: string): (r: Option<Decimal>)
    ensures r.Some? ==> DigitsOf(t) != [] && SeparatorsAgree(t)
  {
    if DigitsOf(t) != [] && SeparatorsAgree(t) then
      Some(Decimal(DigitsValue(DigitsOf(t)), DecimalPlaces(t)))
    else None
  }

  // ---------------------------------------------------------------------
  // Main theorems
  // ---------------------------------------------------------------------

  /** Whenever `parse_price` succeeds it yields the reference value: every
      digit of the text, none dropped or reordered, with as many decimal
      places as digits follow the last separator. */
  lemma ParsePriceSound(t: string)
    ensures ParsePrice(Some(t)).Some? ==> ParsePrice(Some(t)) == Reference(t)
  {
    var c := Clean(t);
    var n := Disambiguate(c);
    if ToDecimal(n).Some? {
      SuccessIgnoresWhitespace(n);
      SkeletonCommutes(c);
      CleanSkeleton(t);
      SkeletonParse(Skeleton(t));
      ReferenceSkeleton(t);
    }
  }

  /** Text whose only whitespace is the space character is parsed exactly
      as the reference says, failures included. */
  lemma ParsePriceComplete(t: string)
    requires NoStray(t)
    ensures ParsePrice(Some(t)) == Reference(t)
  {
    var c := Clean(t);
    CleanKeepsNoSpace(t);
    FilterAll(c, IsDigitOrSeparator);
    CleanSkeleton(t);
    SkeletonParse(Skeleton(t));
    ReferenceSkeleton(t);
  }

  /** The digit-preservation property spelled out. */
  lemma ParsePriceDigits(t: string, d: Decimal)
    requires ParsePrice(Some(t)) == Some(d)
    ensures d.mantissa == DigitsValue(DigitsOf(t))
    ensures d.scale == DecimalPlaces(t)
    ensures d.Value() == DigitsValue(DigitsOf(t)) as real / Pow10(DecimalPlaces(t)) as real
  {
    ParsePriceSound(t);
  }

  /** Failure is a value, never an exception: no digits, or disagreeing
      separators, give `None`. */
  lemma ParsePriceFails(t: string)
    requires DigitsOf(t) == [] || !SeparatorsAgree(t)
    ensures ParsePrice(Some(t)) == None
  {
    ParsePriceSound(t);
  }

  /** A text already of the form `digits[.digits]` is its own value. */
  lemma ParsePriceFixedPoint(t: string)
    requires forall i :: 0 <= i < |t| ==> IsDigit(t[i]) || t[i] == '.'
    requires Count(t, '.') <= 1
    ensures ParsePrice(Some(t)) == ToDecimal(t)
  {
    NoSpaceInLiteralChars(t);
    ParsePriceComplete(t);
    SkeletonParse(t);
    DisambiguatePlain(t);
  }

  /** Disambiguation leaves a plain decimal literal alone. */
  lemma DisambiguatePlain(t: string)
    requires forall i :: 0 <= i < |t| ==> IsDigit(t[i]) || t[i] == '.'
    requires Count(t, '.') <= 1
    ensures Disambiguate(t) == t
  {
    assert ',' !in t;
    assert CommaStep(t) == t;
    assert Disambiguate(t) == PointStep(t);
  }

  /** The last separator wins: the digits before it, whatever separators
      sit among them, are the integer part and the digits after it are the
      fraction; only a text whose earlier part already holds both kinds of
      separator is rejected. */
  lemma ParsePriceLastSeparator(a: string, sep: char, tail: string)
    requires IsSeparator(sep) && ',' !in tail && '.' !in tail
    requires NoStray(a)
    requires NoStray(tail)
    ensures ParsePrice(Some(a + [sep] + tail)) ==
      var d := DigitsOf(a) + DigitsOf(tail);
      if d == [] || (',' in a && '.' in a) then None
      else Some(Decimal(DigitsValue(d), |DigitsOf(tail)|))
  {
    var t := a + [sep] + tail;
    forall i | 0 <= i < |t| ensures !IsStraySpace(t[i]) {
      if i > |a| {
        assert t[i] == tail[i - |a| - 1];
      } else if i < |a| {
        assert t[i] == a[i];
      }
    }
    ParsePriceComplete(t);
    ReferenceAtLastSeparator(a, sep, tail);
  }

  /** A text without separators is a whole number of its digits. */
  lemma ParsePriceWhole(t: string)
    requires ',' !in t && '.' !in t
    requires NoStray(t)
    ensures ParsePrice(Some(t)) ==
      if DigitsOf(t) == [] then None else Some(Decimal(DigitsValue(DigitsOf(t)), 0))
  {
    ParsePriceComplete(t);
  }

  lemma ReferenceAtLastSeparator(a: string, sep: char, tail: string)
    requires IsSeparator(sep) && ',' !in tail && '.' !in tail
    ensures Reference(a + [sep] + tail) ==
      var d := DigitsOf(a) + DigitsOf(tail);
      if d == [] || (',' in a && '.' in a) then None
      else Some(Decimal(DigitsValue(d), |DigitsOf(tail)|))
  {
    var t := a + [sep] + tail;
    LastSeparatorAt(a, sep, tail);
    FilterAroundDropped(a, sep, tail, IsDigit);
    LastKindCount(t, a, sep, tail);
    OtherKindAt(t, a, sep, tail);
  }

  /** The last separator's kind occurs once exactly when it is absent before. */
  lemma LastKindCount(t: string, a: string, sep: char, tail: string)
    requires t == a + [sep] + tail && sep !in tail
    ensures Count(t, sep) == 1 <==> sep !in a
  {
    CountConcat(a + [sep], tail, sep);
    CountConcat(a, [sep], sep);
  }

  /** Both kinds occur exactly when the other kind occurs before the last separator. */
  lemma OtherKindAt(t: string, a: string, sep: char, tail: string)
    requires t == a + [sep] + tail && IsSeparator(sep) && ',' !in tail && '.' !in tail
    ensures (',' in t && '.' in t) <==> (if sep == ',' then '.' in a else ',' in a)
  {
    assert forall ch :: ch in t <==> ch in a || ch == sep || ch in tail;
  }

  /** The last separator of `a + [sep] + tail` is `sep` when `tail` has none. */
  lemma {:induction false} LastSeparatorAt(a: string, sep: char, tail: string)
    requires IsSeparator(sep) && ',' !in tail && '.' !in tail
    ensures LastSeparator(a + [sep] + tail) == Some((sep, tail))
    decreases |tail|
  {
    if tail == [] {
      LastSeparatorSnoc(a, sep);
      assert a + [sep] + tail == a + [sep];
    } else {
      var init, last := tail[..|tail| - 1], tail[|tail| - 1];
      assert tail == init + [last];
      assert last in tail;
      assert ',' !in init && '.' !in init;
      LastSeparatorAt(a, sep, init);
      var p := a + [sep] + init;
      assert a + [sep] + tail == p + [last];
      LastSeparatorSnoc(p, last);
      assert Extend(Some((sep, init)), last) == Some((sep, tail));
    }
  }

  /** Everything that reaches the conversion is digits, points and
      whitespace: signs, exponents, `inf`, `nan` and underscores never do,
      and no comma survives. */
  lemma NormalisedAlphabet(t: string)
    ensures var n := Disambiguate(Clean(t));
      forall i :: 0 <= i < |n| ==> IsDigit(n[i]) || n[i] == '.' || IsSpace(n[i])
  {
    var c := Clean(t);
    DisambiguateAlphabet(c);
  }

  // ---------------------------------------------------------------------
  // Cleaning only deletes whitespace and foreign characters
  // ---------------------------------------------------------------------

  /** Cleaning keeps every digit and separator, in order. */
  lemma CleanSkeleton(t: string)
    ensures Skeleton(Clean(t)) == Skeleton(t)
  {
    var s0 := Strip(t);
    var kept := Filter(s0, IsPriceChar);
    var s2 := Strip(kept);
    FilterRemove(s2, ' ', IsDigitOrSeparator);
    assert Skeleton(Clean(t)) == Skeleton(s2);
    StripSkeleton(kept);
    FilterAbsorb(s0, IsPriceChar, IsDigitOrSeparator);
    assert Skeleton(kept) == Skeleton(s0);
    StripSkeleton(t);
  }

  lemma StripSkeleton(s: string)
    ensures Skeleton(Strip(s)) == Skeleton(s)
  {
    StripFilter(s, IsSpace, IsDigitOrSeparator);
  }

  lemma CleanKeepsNoSpace(t: string)
    requires NoStray(t)
    ensures forall i :: 0 <= i < |Clean(t)| ==> IsDigitOrSeparator(Clean(t)[i])
  {
    var prop := ch => !IsSpace(ch) || ch == ' ';
    var s0 := Strip(t);
    StripKeeps(t, IsSpace, prop);
    var kept := Filter(s0, IsPriceChar);
    FilterKeeps(s0, IsPriceChar, prop);
    StripKeeps(kept, IsSpace, prop);
    RemoveKeeps(Strip(kept), ' ', prop);
  }

  /** The reference looks only at digits and separators. */
  lemma ReferenceSkeleton(t: string)
    ensures Reference(Skeleton(t)) == Reference(t)
  {
    ReferenceFilter(t, IsDigitOrSeparator);
  }

  lemma ReferenceFilter(s: string, keep: char -> bool)
    requires forall ch :: IsDigitOrSeparator(ch) ==> keep(ch)
    ensures Reference(Filter(s, keep)) == Reference(s)
  {
    FilterAbsorb(s, keep, IsDigit);
    LastSeparatorFilter(s, keep);
    SeparatorsAgreeFilter(s, keep);
    DecimalPlacesFilter(s, keep);
  }

  lemma SeparatorsAgreeFilter(s: string, keep: char -> bool)
    requires forall ch :: IsSeparator(ch) ==> keep(ch)
    requires LastSeparator(Filter(s, keep)) == FilterTail(LastSeparator(s), keep)
    ensures SeparatorsAgree(Filter(s, keep)) == SeparatorsAgree(s)
  {
    CountFilter(s, keep, ',');
    CountFilter(s, keep, '.');
  }

  lemma DecimalPlacesFilter(s: string, keep: char -> bool)
    requires forall ch :: IsDigit(ch) ==> keep(ch)
    requires LastSeparator(Filter(s, keep)) == FilterTail(LastSeparator(s), keep)
    ensures DecimalPlaces(Filter(s, keep)) == DecimalPlaces(s)
  {
    match LastSeparator(s)
    case None =>
    case Some((sep, tail)) =>
      FilterAbsorb(tail, keep, IsDigit);
  }

  /** The last separator once one more character is appended. */
  function Extend(r: Option<(char, string)>, ch: char): Option<(char, string)> {
    match r
    case None => None
    case Some((sep, tail)) => Some((sep, tail + [ch]))
  }

  /** The last separator with the text after it filtered. */
  function FilterTail(r: Option<(char, string)>, keep: char -> bool): Option<(char, string)> {
    match r
    case None => None
    case Some((sep, tail)) => Some((sep, Filter(tail, keep)))
  }

  lemma LastSeparatorSnoc(s: string, ch: char)
    ensures LastSeparator(s + [ch]) ==
      if IsSeparator(ch) then Some((ch, [])) else Extend(LastSeparator(s), ch)
  {
    assert (s + [ch])[..|s|] == s;
  }

  lemma FilterSnoc(s: string, ch: char, keep: char -> bool)
    ensures keep(ch) ==> Filter(s + [ch], keep) == Filter(s, keep) + [ch]
    ensures !keep(ch) ==> Filter(s + [ch], keep) == Filter(s, keep)
  {
    FilterConcat(s, [ch], keep);
    assert Filter([ch], keep) == (if keep(ch) then [ch] else []) + Filter([], keep);
    assert Filter(s, keep) + [] == Filter(s, keep);
  }

  lemma FilterTailExtend(r: Option<(char, string)>, ch: char, keep: char -> bool)
    ensures FilterTail(Extend(r, ch), keep) ==
      if keep(ch) then Extend(FilterTail(r, keep), ch) else FilterTail(r, keep)
  {
    match r
    case None =>
    case Some((sep, tail)) =>
      FilterSnoc(tail, ch, keep);
  }

  /** A filter that keeps both separators finds the same last separator. */
  lemma {:induction false} LastSeparatorFilter(s: string, keep: char -> bool)
    requires forall ch :: IsSeparator(ch) ==> keep(ch)
    ensures LastSeparator(Filter(s, keep)) == FilterTail(LastSeparator(s), keep)
  {
    if s != [] {
      var init, last := s[..|s| - 1], s[|s| - 1];
      assert s == init + [last];
      LastSeparatorFilter(init, keep);
      FilterSnoc(init, last, keep);
      LastSeparatorSnoc(init, last);
      FilterTailExtend(LastSeparator(init), last, keep);
      if IsSeparator(last) {
        LastSeparatorSnoc(Filter(init, keep), last);
        assert Filter([], keep) == [];
      } else if keep(last) {
        LastSeparatorSnoc(Filter(init, keep), last);
      }
    }
  }

  // ---------------------------------------------------------------------
  // Disambiguation ignores whitespace
  // ---------------------------------------------------------------------

  /** `rfind` of the two separators agrees with the last separator. */
  lemma RFindOrder(s: string)
    requires ',' in s && '.' in s
    ensures RFind(s, ',') > RFind(s, '.') <==> LastSeparator(s).value.0 == ','
  {
    var (sep, tail) := LastSeparator(s).value;
    var j := |s| - |tail| - 1;
    RFindAt(s, sep, j);
  }

  lemma RFindAt(s: string, x: char, j: nat)
    requires j < |s| && s[j] == x && x !in s[j + 1..]
    ensures RFind(s, x) == j
  {
  }

  /** Keeping the last `sep` as the point, closed form. */
  lemma KeepLastSplit(a: string, sep: char, b: string)
    requires sep !in b
    ensures KeepLastAsPoint(a + [sep] + b, sep) == Remove(a, sep) + "." + b
  {
    SplitLast(a, sep, b);
  }

  /** Keeping the last `sep` commutes with a filter that keeps `sep` and the point. */
  lemma KeepLastFilter(s: string, sep: char, keep: char -> bool)
    requires sep in s && keep(sep) && keep('.')
    ensures Filter(KeepLastAsPoint(s, sep), keep) == KeepLastAsPoint(Filter(s, keep), sep)
  {
    var i := RFind(s, sep);
    SplitAt(s, sep, i);
    KeepLastFilterAt(s, s[..i], sep, s[i + 1..], keep);
  }

  lemma KeepLastFilterAt(s: string, a: string, sep: char, b: string, keep: char -> bool)
    requires s == a + [sep] + b && sep !in b && keep(sep) && keep('.')
    ensures Filter(KeepLastAsPoint(s, sep), keep) == KeepLastAsPoint(Filter(s, keep), sep)
  {
    var fa, fb := Filter(a, keep), Filter(b, keep);
    KeepLastSplit(a, sep, b);
    FilterAround(Remove(a, sep), '.', b, keep);
    RemoveFilter(a, sep, keep);
    assert Filter(KeepLastAsPoint(s, sep), keep) == Remove(fa, sep) + "." + fb;
    FilterAround(a, sep, b, keep);
    CountFilter(b, keep, sep);
    KeepLastSplit(fa, sep, fb);
  }

  /** Deleting whitespace before or after disambiguating gives the same text. */
  lemma SkeletonCommutes(c: string)
    ensures Skeleton(Disambiguate(c)) == Disambiguate(Skeleton(c))
  {
    var k := Skeleton(c);
    CountFilter(c, IsDigitOrSeparator, ',');
    CountFilter(c, IsDigitOrSeparator, '.');
    if ',' in c && '.' in c {
      LastSeparatorFilter(c, IsDigitOrSeparator);
      RFindOrder(c);
      RFindOrder(k);
      FilterCommute(c, ch => ch != '.', IsDigitOrSeparator);
      FilterCommute(c, ch => ch != ',', IsDigitOrSeparator);
      ReplaceFilter(Remove(c, '.'), ',', '.', IsDigitOrSeparator);
    } else {
      FirstStepCommutes(c);
    }
  }

  /** The `else` branch: the comma step, then the point step. */
  function CommaStep(s: string): string {
    if ',' in s && '.' !in s then
      if Count(s, ',') > 1 then KeepLastAsPoint(s, ',') else Replace(s, ',', '.')
    else s
  }

  function PointStep(s: string): string {
    if '.' in s && Count(s, '.') > 1 then KeepLastAsPoint(s, '.') else s
  }

  lemma FirstStepCommutes(c: string)
    requires !(',' in c && '.' in c)
    ensures Skeleton(Disambiguate(c)) == Disambiguate(Skeleton(c))
  {
    var k := Skeleton(c);
    CountFilter(c, IsDigitOrSeparator, ',');
    CountFilter(c, IsDigitOrSeparator, '.');
    assert Disambiguate(c) == PointStep(CommaStep(c));
    assert Disambiguate(k) == PointStep(CommaStep(k));
    if ',' in c && '.' !in c {
      if Count(c, ',') > 1 {
        KeepLastFilter(c, ',', IsDigitOrSeparator);
      } else {
        ReplaceFilter(c, ',', '.', IsDigitOrSeparator);
      }
    }
    assert Skeleton(CommaStep(c)) == CommaStep(k);
    PointStepCommutes(CommaStep(c));
  }

  lemma PointStepCommutes(s: string)
    ensures Skeleton(PointStep(s)) == PointStep(Skeleton(s))
  {
    CountFilter(s, IsDigitOrSeparator, '.');
    if '.' in s && Count(s, '.') > 1 {
      KeepLastFilter(s, '.', IsDigitOrSeparator);
    }
  }

  /** A successful conversion does not depend on whitespace the text still holds. */
  lemma SuccessIgnoresWhitespace(n: string)
    requires ToDecimal(n).Some?
    ensures ToDecimal(Skeleton(n)) == ToDecimal(n)
  {
    var core, lo := StripWith(FloatText(n), IsFloatSpace), Leading(FloatText(n), IsFloatSpace);
    ToDecimalShape(n, core, lo);
    var head, tail := n[..lo], n[lo + |core|..];
    forall i | 0 <= i < |tail| ensures IsFloatBlank(tail[i]) {
      assert tail[i] == n[lo + |core| + i];
    }
    SkeletonOfPadded(head, core, tail);
    LiteralToDecimal(core);
  }

  /** Whitespace `float()` skips holds no digit or separator. */
  lemma SkeletonOfPadded(head: string, core: string, tail: string)
    requires forall i :: 0 <= i < |head| ==> IsFloatBlank(head[i])
    requires forall i :: 0 <= i < |core| ==> IsDigit(core[i]) || core[i] == '.'
    requires forall i :: 0 <= i < |tail| ==> IsFloatBlank(tail[i])
    ensures Skeleton(head + core + tail) == core
  {
    FilterNone(head, IsDigitOrSeparator);
    FilterNone(tail, IsDigitOrSeparator);
    FilterAll(core, IsDigitOrSeparator);
    FilterConcat(head, core, IsDigitOrSeparator);
    FilterConcat(head + core, tail, IsDigitOrSeparator);
  }

  // ---------------------------------------------------------------------
  // Disambiguation on digits and separators meets the reference
  // ---------------------------------------------------------------------

  /** On a text of digits and separators, disambiguating and converting
      gives exactly the reference value. */
  lemma SkeletonParse(k: string)
    requires forall i :: 0 <= i < |k| ==> IsDigitOrSeparator(k[i])
    ensures ToDecimal(Disambiguate(k)) == Reference(k)
  {
    match LastSeparator(k)
    case None =>
      NoSeparatorParse(k);
    case Some((sep, tail)) =>
      var a := k[..|k| - |tail| - 1];
      assert k == a + [sep] + tail;
      TailDigits(k, sep, tail);
      SplitDigits(a, sep, tail);
      if SeparatorsAgree(k) {
        AgreeingForm(k, a, sep, tail);
        PointLiteral(DigitsOf(a), tail);
      } else {
        DisagreeingPoints(k, a, sep, tail);
        DisambiguateNoSpace(k);
        TwoPointsRejected(Disambiguate(k));
      }
  }

  lemma NoSeparatorParse(k: string)
    requires forall i :: 0 <= i < |k| ==> IsDigitOrSeparator(k[i])
    requires ',' !in k && '.' !in k
    ensures ToDecimal(Disambiguate(k)) == Reference(k)
  {
    assert AllDigits(k) by {
      forall i | 0 <= i < |k| ensures IsDigit(k[i]) {
        assert k[i] in k;
      }
    }
    FilterAll(k, IsDigit);
    IntegerLiteral(k);
  }

  /** After the last separator of a skeleton come only digits. */
  lemma TailDigits(k: string, sep: char, tail: string)
    requires forall i :: 0 <= i < |k| ==> IsDigitOrSeparator(k[i])
    requires LastSeparator(k) == Some((sep, tail))
    ensures AllDigits(tail)
    ensures DigitsOf(tail) == tail
  {
    SuffixDigits(k, |k| - |tail|, tail);
    FilterAll(tail, IsDigit);
  }

  lemma SuffixDigits(k: string, lo: nat, tail: string)
    requires forall i :: 0 <= i < |k| ==> IsDigitOrSeparator(k[i])
    requires lo <= |k| && tail == k[lo..] && ',' !in tail && '.' !in tail
    ensures AllDigits(tail)
  {
    forall i | 0 <= i < |tail| ensures IsDigit(tail[i]) {
      assert tail[i] == k[lo + i];
      assert tail[i] in tail;
    }
  }

  lemma SplitDigits(a: string, sep: char, tail: string)
    requires IsSeparator(sep) && AllDigits(tail)
    ensures DigitsOf(a + [sep] + tail) == DigitsOf(a) + tail
  {
    FilterAroundDropped(a, sep, tail, IsDigit);
    FilterAll(tail, IsDigit);
  }

  /** Digits and one kind of separator, with that kind deleted, are the digits. */
  lemma RemoveLeavesDigits(a: string, x: char)
    requires forall i :: 0 <= i < |a| ==> IsDigitOrSeparator(a[i])
    requires IsSeparator(x)
    requires (if x == ',' then '.' else ',') !in a
    ensures Remove(a, x) == DigitsOf(a)
  {
    forall i | 0 <= i < |a| ensures (a[i] != x) == IsDigit(a[i]) {
      assert a[i] in a;
    }
    RemoveCongruent(a, x, IsDigit);
  }

  lemma SkeletonPrefix(k: string, a: string, sep: char, tail: string)
    requires forall i :: 0 <= i < |k| ==> IsDigitOrSeparator(k[i])
    requires k == a + [sep] + tail
    ensures forall i :: 0 <= i < |a| ==> IsDigitOrSeparator(a[i])
  {
    forall i | 0 <= i < |a| ensures IsDigitOrSeparator(a[i]) {
      assert a[i] == k[i];
    }
  }

  /** With agreeing separators the text becomes "digits before" + "." + "digits after". */
  lemma AgreeingForm(k: string, a: string, sep: char, tail: string)
    requires forall i :: 0 <= i < |k| ==> IsDigitOrSeparator(k[i])
    requires LastSeparator(k) == Some((sep, tail)) && AllDigits(tail)
    requires k == a + [sep] + tail
    requires SeparatorsAgree(k)
    ensures Disambiguate(k) == DigitsOf(a) + "." + tail
  {
    SkeletonPrefix(k, a, sep, tail);
    var other := if sep == ',' then '.' else ',';
    if ',' in k && '.' in k {
      AgreeingBoth(k, a, sep, other, tail);
    } else {
      AgreeingOneKind(k, a, sep, other, tail);
    }
  }

  /** Both kinds occur and the last separator's kind occurs once. */
  lemma AgreeingBoth(k: string, a: string, sep: char, other: char, tail: string)
    requires forall i :: 0 <= i < |a| ==> IsDigitOrSeparator(a[i])
    requires LastSeparator(k) == Some((sep, tail)) && AllDigits(tail)
    requires k == a + [sep] + tail && other == (if sep == ',' then '.' else ',')
    requires ',' in k && '.' in k && Count(k, sep) == 1
    ensures Disambiguate(k) == DigitsOf(a) + "." + tail
  {
    LastKindOnce(k, a, sep, tail);
    if sep == ',' {
      BothCommaCase(k, a, tail);
    } else {
      BothPointCase(k, a, tail);
    }
  }

  /** A kind occurring once, at the last separator, is absent before it. */
  lemma LastKindOnce(k: string, a: string, sep: char, tail: string)
    requires LastSeparator(k) == Some((sep, tail))
    requires k == a + [sep] + tail && Count(k, sep) == 1
    ensures sep !in a
  {
    CountConcat(a + [sep], tail, sep);
    CountConcat(a, [sep], sep);
  }

  lemma BothCommaCase(k: string, a: string, tail: string)
    requires forall i :: 0 <= i < |a| ==> IsDigitOrSeparator(a[i])
    requires LastSeparator(k) == Some((',', tail)) && AllDigits(tail)
    requires k == a + [','] + tail && ',' !in a && '.' in k
    ensures Disambiguate(k) == DigitsOf(a) + "." + tail
  {
    RFindOrder(k);
    BothCommaLast(k, a, tail);
  }

  lemma BothPointCase(k: string, a: string, tail: string)
    requires forall i :: 0 <= i < |a| ==> IsDigitOrSeparator(a[i])
    requires LastSeparator(k) == Some(('.', tail)) && AllDigits(tail)
    requires k == a + ['.'] + tail && '.' !in a && ',' in k
    ensures Disambiguate(k) == DigitsOf(a) + "." + tail
  {
    RFindOrder(k);
    BothPointLast(k, a, tail);
  }

  /** Only the last separator's kind occurs. */
  lemma AgreeingOneKind(k: string, a: string, sep: char, other: char, tail: string)
    requires forall i :: 0 <= i < |a| ==> IsDigitOrSeparator(a[i])
    requires LastSeparator(k) == Some((sep, tail)) && AllDigits(tail)
    requires k == a + [sep] + tail && other == (if sep == ',' then '.' else ',')
    requires !(',' in k && '.' in k)
    ensures Disambiguate(k) == DigitsOf(a) + "." + tail
  {
    assert sep in k;
    assert other !in a by {
      forall i | 0 <= i < |a| ensures a[i] != other {
        assert a[i] == k[i];
      }
    }
    if sep == ',' {
      CommaOnly(k, a, tail);
    } else {
      PointOnly(k, a, tail);
    }
  }

  lemma BothCommaLast(k: string, a: string, tail: string)
    requires forall i :: 0 <= i < |a| ==> IsDigitOrSeparator(a[i])
    requires AllDigits(tail) && ',' !in tail && '.' !in tail
    requires k == a + [','] + tail && ',' !in a
    ensures Replace(Remove(k, '.'), ',', '.') == DigitsOf(a) + "." + tail
  {
    RemoveAroundOther(a, ',', tail, '.');
    RemoveAbsent(tail, '.');
    RemoveLeavesDigits(a, '.');
    var d := DigitsOf(a);
    assert Remove(k, '.') == d + [','] + tail;
    ReplaceAround(d, ',', tail, ',', '.');
    assert ',' !in d;
    ReplaceAbsent(d, ',', '.');
    ReplaceAbsent(tail, ',', '.');
  }

  lemma BothPointLast(k: string, a: string, tail: string)
    requires forall i :: 0 <= i < |a| ==> IsDigitOrSeparator(a[i])
    requires AllDigits(tail) && ',' !in tail && '.' !in tail
    requires k == a + ['.'] + tail && '.' !in a
    ensures Remove(k, ',') == DigitsOf(a) + "." + tail
  {
    RemoveAroundOther(a, '.', tail, ',');
    RemoveAbsent(tail, ',');
    RemoveLeavesDigits(a, ',');
  }

  lemma CommaOnly(k: string, a: string, tail: string)
    requires forall i :: 0 <= i < |a| ==> IsDigitOrSeparator(a[i])
    requires AllDigits(tail) && ',' !in tail && '.' !in tail
    requires k == a + [','] + tail && '.' !in a
    ensures Disambiguate(k) == DigitsOf(a) + "." + tail
  {
    RemoveLeavesDigits(a, ',');
    var s1 := CommaStep(k);
    if Count(k, ',') > 1 {
      KeepLastSplit(a, ',', tail);
    } else {
      SingleComma(a, tail);
    }
    assert s1 == DigitsOf(a) + "." + tail;
    assert '.' !in DigitsOf(a) && '.' !in tail;
    PointLiteralCount(DigitsOf(a), tail);
    assert Disambiguate(k) == PointStep(s1);
  }

  /** With a single comma, replacing it by the point is the same as deleting
      commas before it. */
  lemma SingleComma(a: string, tail: string)
    requires ',' !in tail
    requires Count(a + [','] + tail, ',') <= 1
    ensures ',' !in a
    ensures Replace(a + [','] + tail, ',', '.') == Remove(a, ',') + "." + tail
  {
    CountConcat(a + [','], tail, ',');
    CountConcat(a, [','], ',');
    RemoveAbsent(a, ',');
    ReplaceAround(a, ',', tail, ',', '.');
    ReplaceAbsent(a, ',', '.');
    ReplaceAbsent(tail, ',', '.');
  }

  lemma PointOnly(k: string, a: string, tail: string)
    requires forall i :: 0 <= i < |a| ==> IsDigitOrSeparator(a[i])
    requires AllDigits(tail) && ',' !in tail && '.' !in tail
    requires k == a + ['.'] + tail && ',' !in a
    ensures Disambiguate(k) == DigitsOf(a) + "." + tail
  {
    RemoveLeavesDigits(a, '.');
    assert Disambiguate(k) == PointStep(k);
    if Count(k, '.') > 1 {
      KeepLastSplit(a, '.', tail);
    } else {
      CountConcat(a + ['.'], tail, '.');
      CountConcat(a, ['.'], '.');
      RemoveAbsent(a, '.');
    }
  }

  /** With disagreeing separators at least two points reach the conversion. */
  lemma DisagreeingPoints(k: string, a: string, sep: char, tail: string)
    requires LastSeparator(k) == Some((sep, tail))
    requires k == a + [sep] + tail
    requires !SeparatorsAgree(k)
    ensures Count(Disambiguate(k), '.') >= 2
  {
    RFindOrder(k);
    if sep == ',' {
      var r := Remove(k, '.');
      CountRemove(k, '.', ',');
      CountRemove(k, '.', '.');
      CountReplace(r, ',', '.');
    } else {
      CountRemove(k, ',', '.');
    }
  }

  /** Disambiguation never introduces a character other than the point. */
  lemma DisambiguateAlphabet(c: string)
    requires forall i :: 0 <= i < |c| ==> IsPriceChar(c[i])
    ensures var n := Disambiguate(c);
      forall i :: 0 <= i < |n| ==> IsDigit(n[i]) || n[i] == '.' || IsSpace(n[i])
  {
    var ok := ch => IsDigit(ch) || ch == '.' || IsSpace(ch);
    if ',' in c && '.' in c {
      var r := Remove(c, '.');
      RemoveKeeps(c, '.', IsPriceChar);
      var n := Replace(r, ',', '.');
      forall i | 0 <= i < |n| ensures ok(n[i]) {
        assert IsPriceChar(r[i]);
      }
      var m := Remove(c, ',');
      RemoveKeeps(c, ',', IsPriceChar);
      forall i | 0 <= i < |m| ensures ok(m[i]) {
        assert m[i] in m;
      }
    } else {
      var s1 := CommaStep(c);
      CommaStepAlphabet(c);
      PointStepAlphabet(s1);
      assert Disambiguate(c) == PointStep(s1);
    }
  }

  lemma CommaStepAlphabet(c: string)
    requires forall i :: 0 <= i < |c| ==> IsPriceChar(c[i])
    requires !(',' in c && '.' in c)
    ensures var s1 := CommaStep(c);
      forall i :: 0 <= i < |s1| ==> IsPriceChar(s1[i]) && s1[i] != ','
  {
    if ',' in c {
      if Count(c, ',') > 1 {
        KeepLastAlphabet(c, ',');
      } else {
        var r := Replace(c, ',', '.');
        forall i | 0 <= i < |r| ensures IsPriceChar(r[i]) && r[i] != ',' {
        }
      }
    } else {
      forall i | 0 <= i < |c| ensures c[i] != ',' {
        assert c[i] in c;
      }
    }
  }

  lemma PointStepAlphabet(s: string)
    requires forall i :: 0 <= i < |s| ==> IsPriceChar(s[i]) && s[i] != ','
    ensures var n := PointStep(s);
      forall i :: 0 <= i < |n| ==> IsDigit(n[i]) || n[i] == '.' || IsSpace(n[i])
  {
    if '.' in s && Count(s, '.') > 1 {
      KeepLastAlphabet(s, '.');
    } else {
      assert PointStep(s) == s;
    }
  }

  /** A price character other than the comma. */
  predicate IsPriceCharNotComma(ch: char) {
    IsPriceChar(ch) && ch != ','
  }

  /** Keeping the last `sep` as the point leaves only price characters and,
      when a comma could only have been the separator, no comma. */
  lemma KeepLastAlphabet(s: string, sep: char)
    requires sep in s && IsSeparator(sep)
    requires forall i :: 0 <= i < |s| ==> IsPriceChar(s[i]) && (s[i] == ',' ==> sep == ',')
    ensures var n := KeepLastAsPoint(s, sep);
      forall i :: 0 <= i < |n| ==> IsPriceCharNotComma(n[i])
  {
    var i := RFind(s, sep);
    SplitAt(s, sep, i);
    var a, b := s[..i], s[i + 1..];
    KeepLastSplit(a, sep, b);
    AlphabetParts(a, sep, b);
    PointJoinAlphabet(Remove(a, sep), b);
  }

  lemma PointJoinAlphabet(ra: string, b: string)
    requires forall j :: 0 <= j < |ra| ==> IsPriceCharNotComma(ra[j])
    requires forall j :: 0 <= j < |b| ==> IsPriceCharNotComma(b[j])
    ensures var n := ra + "." + b;
      forall j :: 0 <= j < |n| ==> IsPriceCharNotComma(n[j])
  {
    var n := ra + "." + b;
    forall j | 0 <= j < |n| ensures IsPriceCharNotComma(n[j]) {
      if j > |ra| {
        assert n[j] == b[j - |ra| - 1];
      } else if j < |ra| {
        assert n[j] == ra[j];
      }
    }
  }

  /** The two pieces joined around the kept point carry no comma. */
  lemma AlphabetParts(a: string, sep: char, b: string)
    requires IsSeparator(sep) && sep !in b
    requires var s := a + [sep] + b;
      forall i :: 0 <= i < |s| ==> IsPriceChar(s[i]) && (s[i] == ',' ==> sep == ',')
    ensures forall j :: 0 <= j < |Remove(a, sep)| ==> IsPriceCharNotComma(Remove(a, sep)[j])
    ensures forall j :: 0 <= j < |b| ==> IsPriceCharNotComma(b[j])
  {
    var s := a + [sep] + b;
    forall j | 0 <= j < |b| ensures IsPriceCharNotComma(b[j]) {
      assert b[j] == s[|a| + 1 + j];
      assert b[j] in b;
    }
    var ra := Remove(a, sep);
    if sep == ',' {
      forall j | 0 <= j < |a| ensures IsPriceChar(a[j]) {
        assert a[j] == s[j];
      }
      RemoveKeeps(a, sep, IsPriceChar);
      forall j | 0 <= j < |ra| ensures IsPriceCharNotComma(ra[j]) {
        assert ra[j] in ra;
      }
    } else {
      forall j | 0 <= j < |a| ensures IsPriceCharNotComma(a[j]) {
        assert a[j] == s[j];
      }
      RemoveKeeps(a, sep, IsPriceCharNotComma);
    }
  }

  /** A text of digits and separators keeps no whitespace through disambiguation. */
  lemma DisambiguateNoSpace(k: string)
    requires forall i :: 0 <= i < |k| ==> IsDigitOrSeparator(k[i])
    ensures var n := Disambiguate(k);
      forall i :: 0 <= i < |n| ==> !IsSpace(n[i])
  {
    DisambiguateAlphabet(k);
    var n := Disambiguate(k);
    SkeletonCommutes(k);
    FilterAll(k, IsDigitOrSeparator);
    assert Skeleton(n) == n;
  }
}

=== FILE: price_cases.dfy ===
/**
 `parse_price` on the texts its docstring and comments name, and on the
 edge cases around them: both separator orders, a lone comma, repeated
 points, a second comma after the decimal comma, empty and separator-only
 text, and whitespace that the conversion does or does not skip.

 Each case splits its text at the last separator, establishes the facts
 about the two parts in a lemma of its own, and then applies the closed
 form of `ParsePriceLastSeparator` through `PricedAt` or `RejectedAt`.
 */
module PriceCases {
  import opened Wrappers
  import opened Text
  import opened Decimals
  import opened PriceText
  import opened PriceSpaces
  import opened Watcher

  /** A text split at its last separator, with digits, parses to the
      integer part's digits followed by the fraction's, scaled by the
      fraction's length. */
  lemma PricedAt(t: string, a: string, sep: char, tail: string, ia: string, ft: string, x: nat, k: nat)
    requires t == a + [sep] + tail && IsSeparator(sep) && ',' !in tail && '.' !in tail
    requires NoStray(a) && NoStray(tail) && !(',' in a && '.' in a)
    requires DigitsOf(a) == ia && DigitsOf(tail) == ft && ia + ft != []
    requires DigitsValue(ia + ft) == x && |ft| == k
    ensures ParsePrice(Some(t)) == Some(Decimal(x, k))
  {
    ParsePriceLastSeparator(a, sep, tail);
  }

  /** A text split at its last separator parses to nothing when it has no
      digit or its integer part already holds both kinds of separator. */
  lemma RejectedAt(t: string, a: string, sep: char, tail: string)
    requires t == a + [sep] + tail && IsSeparator(sep) && ',' !in tail && '.' !in tail
    requires NoStray(a) && NoStray(tail)
    requires DigitsOf(a) + DigitsOf(tail) == [] || (',' in a && '.' in a)
    ensures ParsePrice(Some(t)) == None
  {
    ParsePriceLastSeparator(a, sep, tail);
  }

  /** The value of integer digits `a` followed by fraction digits `b`. */
  lemma DigitsValueOfParts(a: string, b: string, x: nat, y: nat)
    requires AllDigits(a) && AllDigits(b) && DigitsValue(a) == x && DigitsValue(b) == y
    ensures DigitsValue(a + b) == x * Pow10(|b|) + y
  {
    DigitsValueConcat(a, b);
  }

  /** A string of digits is its own digit sequence. */
  lemma DigitsOfDigits(s: string)
    requires AllDigits(s)
    ensures DigitsOf(s) == s
  {
    FilterAll(s, IsDigit);
  }


  lemma Value1234()
    ensures DigitsValue("1234") == 1234
  {
    assert "1234" == "1" + "234";
    DigitsValueOfParts("1", "234", 1, 234);
  }

  lemma Value123456()
    ensures DigitsValue("1234" + "56") == 123456
  {
    Value1234();
    DigitsValueOfParts("1234", "56", 1234, 56);
  }

  // ---------------------------------------------------------------------
  // The two conventions
  // ---------------------------------------------------------------------

  /** US style: the point comes last, so the comma groups thousands. */
  lemma UsThousands(t: string)
    requires t == "$1,234.56"
    ensures ParsePrice(Some(t)) == Some(Decimal(123456, 2))
  {
    var a, tail := "$1,234", "56";
    UsSplit(t, a, tail);
    UsDigits(a, tail);
    Value123456();
    PricedAt(t, a, '.', tail, "1234", "56", 123456, 2);
  }

  lemma UsSplit(t: string, a: string, tail: string)
    requires t == "$1,234.56" && a == "$1,234" && tail == "56"
    ensures t == a + ['.'] + tail && ',' !in tail && '.' !in tail
    ensures NoStray(a) && NoStray(tail) && '.' !in a
  {
  }

  lemma UsDigits(a: string, tail: string)
    requires a == "$1,234" && tail == "56"
    ensures DigitsOf(a) == "1234" && DigitsOf(tail) == "56"
  {
    assert a == "$1," + "234";
    FilterConcat("$1,", "234", IsDigit);
    DigitsOfDigits(tail);
  }

  /** European style: the comma comes last and is the decimal point. */
  lemma EuropeanThousands(t: string)
    requires t == "1.234,56"
    ensures ParsePrice(Some(t)) == Some(Decimal(123456, 2))
  {
    var a, tail := "1.234", "56";
    EuropeanSplit(t, a, tail);
    PointGroupDigits(a, tail);
    Value123456();
    PricedAt(t, a, ',', tail, "1234", "56", 123456, 2);
  }

  lemma EuropeanSplit(t: string, a: string, tail: string)
    requires t == "1.234,56" && a == "1.234" && tail == "56"
    ensures t == a + [','] + tail && ',' !in tail && '.' !in tail
    ensures NoStray(a) && NoStray(tail) && ',' !in a && AllDigits(tail)
  {
  }

  /** The integer part `1.234`, with any all-digit fraction. */
  lemma PointGroupDigits(a: string, tail: string)
    requires a == "1.234" && AllDigits(tail)
    ensures DigitsOf(a) == "1234" && DigitsOf(tail) == tail
  {
    assert a == "1." + "234";
    FilterConcat("1.", "234", IsDigit);
    DigitsOfDigits(tail);
  }

  /** Letters, the currency sign and the space all go. */
  lemma CurrencyPrefix(t: string)
    requires t == "US$ 2.500,00"
    ensures ParsePrice(Some(t)) == Some(Decimal(250000, 2))
  {
    var a, tail := "US$ 2.500", "00";
    CurrencySplit(t, a, tail);
    CurrencyDigits(a, tail);
    Value250000();
    PricedAt(t, a, ',', tail, "2500", "00", 250000, 2);
  }

  lemma CurrencySplit(t: string, a: string, tail: string)
    requires t == "US$ 2.500,00" && a == "US$ 2.500" && tail == "00"
    ensures t == a + [','] + tail && ',' !in tail && '.' !in tail
    ensures NoStray(a) && NoStray(tail) && ',' !in a
  {
  }

  lemma CurrencyDigits(a: string, tail: string)
    requires a == "US$ 2.500" && tail == "00"
    ensures DigitsOf(a) == "2500" && DigitsOf(tail) == "00"
  {
    assert a == "US$" + " 2." + "500";
    FilterConcat("US$", " 2.", IsDigit);
    FilterConcat("US$" + " 2.", "500", IsDigit);
    DigitsOfDigits(tail);
  }

  lemma Value250000()
    ensures DigitsValue("2500" + "00") == 250000
  {
    assert "2500" == "2" + "500";
    DigitsValueOfParts("2", "500", 2, 500);
    DigitsValueOfParts("2500", "00", 2500, 0);
  }

  /** A single comma is the decimal point. */
  lemma LoneComma(t: string)
    requires t == "123,45"
    ensures ParsePrice(Some(t)) == Some(Decimal(12345, 2))
  {
    var a, tail := "123", "45";
    LoneCommaSplit(t, a, tail);
    DigitsOfDigits(a);
    DigitsOfDigits(tail);
    DigitsValueOfParts("123", "45", 123, 45);
    PricedAt(t, a, ',', tail, "123", "45", 12345, 2);
  }

  lemma LoneCommaSplit(t: string, a: string, tail: string)
    requires t == "123,45" && a == "123" && tail == "45"
    ensures t == a + [','] + tail && ',' !in tail && '.' !in tail
    ensures NoStray(a) && NoStray(tail) && ',' !in a
    ensures AllDigits(a) && AllDigits(tail)
  {
  }

  /** Repeated points: all but the last are deleted, so this is 1234.567,
      not 1234567. */
  lemma RepeatedPoints(t: string)
    requires t == "1.234.567"
    ensures ParsePrice(Some(t)) == Some(Decimal(1234567, 3))
  {
    var a, tail := "1.234", "567";
    RepeatedPointsSplit(t, a, tail);
    PointGroupDigits(a, tail);
    Value1234567();
    PricedAt(t, a, '.', tail, "1234", "567", 1234567, 3);
  }

  lemma RepeatedPointsSplit(t: string, a: string, tail: string)
    requires t == "1.234.567" && a == "1.234" && tail == "567"
    ensures t == a + ['.'] + tail && ',' !in tail && '.' !in tail
    ensures NoStray(a) && NoStray(tail) && ',' !in a && AllDigits(tail)
  {
  }

  lemma Value1234567()
    ensures DigitsValue("1234" + "567") == 1234567
  {
    Value1234();
    DigitsValueOfParts("1234", "567", 1234, 567);
  }

  // ---------------------------------------------------------------------
  // Texts without a price
  // ---------------------------------------------------------------------

  /** With both kinds present every comma becomes a point, so a second
      comma after the decimal comma leaves two points and no price. */
  lemma SecondDecimalComma(t: string)
    requires t == "1.234,5,6"
    ensures ParsePrice(Some(t)) == None
  {
    var a, tail := "1.234,5", "6";
    SecondCommaParts(t, a, tail);
    RejectedAt(t, a, ',', tail);
  }

  lemma SecondCommaParts(t: string, a: string, tail: string)
    requires t == "1.234,5,6" && a == "1.234,5" && tail == "6"
    ensures t == a + [','] + tail && ',' !in tail && '.' !in tail
    ensures NoStray(a) && NoStray(tail) && ',' in a && '.' in a
  {
    assert a[1] == '.' && a[5] == ',';
  }

  lemma EmptyText()
    ensures ParsePrice(Some("")) == None
  {
    ParsePriceWhole("");
  }

  lemma OnlySeparator(t: string)
    requires t == ","
    ensures ParsePrice(Some(t)) == None
  {
    assert t == [] + [','] + [];
    RejectedAt(t, [], ',', []);
  }

  // ---------------------------------------------------------------------
  // Whitespace that survives cleaning
  // ---------------------------------------------------------------------

  /** A tab survives cleaning, but here disambiguation leaves it at the
      front, where the conversion skips it. */
  lemma TabSkipped(t: string)
    requires t == ",\t5.0"
    ensures ParsePrice(Some(t)) == Some(Decimal(50, 1))
  {
    var n := "\t5.0";
    LeadingCommaParts(t, n);
    LeadingCommaDropped(t, n);
    TabNumber(n);
  }

  /** The information separator U+001C is whitespace to the cleaning regex
      but not to the conversion, so the same text with it in place of the
      tab has no price. */
  lemma SeparatorNotSkipped(t: string)
    requires t == ",\U{1C}5.0"
    ensures ParsePrice(Some(t)) == None
  {
    var n := "\U{1C}5.0";
    LeadingCommaParts(t, n);
    LeadingCommaDropped(t, n);
    SeparatorNumber(n);
  }

  lemma LeadingCommaParts(t: string, n: string)
    requires |n| == 4 && t == [','] + n && n[1..] == "5.0" && IsStraySpace(n[0])
    ensures ',' !in n && '.' in n && IsDigit(t[|t| - 1])
    ensures forall i :: 0 <= i < |t| ==> IsPriceChar(t[i]) && t[i] != ' '
  {
    assert n == [n[0]] + "5.0";
    assert n[2] == '.';
  }

  /** A text that starts with its only comma, holds a point after it, ends
      in a digit and has nothing cleaning deletes, parses as the rest of the
      text. */
  lemma LeadingCommaDropped(t: string, n: string)
    requires t == [','] + n && ',' !in n && '.' in n && IsDigit(t[|t| - 1])
    requires forall i :: 0 <= i < |t| ==> IsPriceChar(t[i]) && t[i] != ' '
    ensures ParsePrice(Some(t)) == ToDecimal(n)
  {
    CleanFixed(t);
    CommaDropped(t, n);
  }

  /** Text that is already clean: no whitespace at either end and only
      price characters other than ' '. */
  lemma CleanFixed(t: string)
    requires t != [] && !IsSpace(t[0]) && !IsSpace(t[|t| - 1])
    requires forall i :: 0 <= i < |t| ==> IsPriceChar(t[i]) && t[i] != ' '
    ensures Clean(t) == t
  {
    StripAround([], t, [], IsSpace);
    assert [] + t + [] == t;
    FilterAll(t, IsPriceChar);
    RemoveAbsent(t, ' ');
  }

  /** A comma before every point is a thousands separator and is deleted. */
  lemma CommaDropped(t: string, n: string)
    requires t == [','] + n && ',' !in n && '.' in n
    ensures Disambiguate(t) == n
  {
    assert t[1..] == n;
    RFindAt(t, ',', 0);
    assert t[0] == ',' && ',' in t;
    var j :| 0 <= j < |n| && n[j] == '.';
    assert t[j + 1] == '.';
    assert RFind(t, '.') > 0;
    assert Disambiguate(t) == Remove(t, ',');
    LeadingCommaRemoved(t, n);
  }

  lemma LeadingCommaRemoved(t: string, n: string)
    requires t == [','] + n && ',' !in n
    ensures Remove(t, ',') == n
  {
    FilterConcat([','], n, ch => ch != ',');
    FilterAll(n, ch => ch != ',');
  }

  lemma TabNumber(n: string)
    requires n == "\t5.0"
    ensures ToDecimal(n) == Some(Decimal(50, 1))
  {
    TabNumberParts(n);
    PaddedPoint(n, "\t", "5", "0");
  }

  lemma TabNumberParts(n: string)
    requires n == "\t5.0"
    ensures n == "\t" + ("5" + "." + "0") && IsFloatBlank('\t') && DigitsValue("5" + "0") == 50
  {
  }

  /** Whitespace that `float()` skips in front of a decimal literal. */
  lemma PaddedPoint(n: string, w: string, a: string, b: string)
    requires n == w + (a + "." + b) && AllDigits(a) && AllDigits(b) && a + b != []
    requires forall i :: 0 <= i < |w| ==> IsFloatBlank(w[i])
    ensures ToDecimal(n) == Some(Decimal(DigitsValue(a + b), |b|))
  {
    var s := a + "." + b;
    PointLiteralShape(a, b);
    ToDecimalPadded(w, s, "");
    assert w + s + "" == w + s;
    PointLiteral(a, b);
  }

  lemma SeparatorNumber(n: string)
    requires n == "\U{1C}5.0"
    ensures ToDecimal(n) == None
  {
    assert FloatText(n) == n by {
      FloatTextAt(n, 0);
      FloatTextAt(n, 1);
      FloatTextAt(n, 2);
      FloatTextAt(n, 3);
    }
    StripAround([], n, [], IsFloatSpace);
    assert [] + n + [] == n;
    assert !IsDecimalLiteral(n) by {
      assert !IsDigit(n[0]) && n[0] != '.';
    }
  }

  // ---------------------------------------------------------------------
  // The alert on one product
  // ---------------------------------------------------------------------

  /** A check that finds a parsable text succeeds, and alerts exactly when
      the price is at or below the target. */
  lemma AlertAt(p: Product, fetch: Fetch, select: Select, text: string, price: Decimal, target: real)
    requires PriceTextOf(p.url, p.selector, fetch, select) == Some(text)
    requires ParsePrice(Some(text)) == Some(price) && p.target == Some(target)
    ensures Observe(p, fetch, select).status == Ok
    ensures Alerts(Observe(p, fetch, select)) <==> price.Value() <= target
  {
    FetchPriceOutcomes(p.url, p.selector, fetch, select, FetchPrice(p.url, p.selector, fetch, select), Some(text));
  }

  /** "US$ 2.500,00" is 2500: a target of 3000 raises the alert ... */
  lemma AlertUnderTarget(p: Product, fetch: Fetch, select: Select, text: string)
    requires text == "US$ 2.500,00" && PriceTextOf(p.url, p.selector, fetch, select) == Some(text)
    requires p.target == Some(3000.0)
    ensures Alerts(Observe(p, fetch, select))
  {
    CurrencyPrefix(text);
    AlertAt(p, fetch, select, text, Decimal(250000, 2), 3000.0);
    TwoThousandFiveHundred();
  }

  /** ... and a target of 2000 does not, though the check succeeds. */
  lemma NoAlertOverTarget(p: Product, fetch: Fetch, select: Select, text: string)
    requires text == "US$ 2.500,00" && PriceTextOf(p.url, p.selector, fetch, select) == Some(text)
    requires p.target == Some(2000.0)
    ensures !Alerts(Observe(p, fetch, select)) && Observe(p, fetch, select).status == Ok
  {
    CurrencyPrefix(text);
    AlertAt(p, fetch, select, text, Decimal(250000, 2), 2000.0);
    TwoThousandFiveHundred();
  }

  lemma TwoThousandFiveHundred()
    ensures Decimal(250000, 2).Value() == 2500.0
  {
    assert Pow10(2) == 100;
  }
}

=== FILE: price_spaces.dfy ===
/**
 Whitespace inside a number. Cleaning deletes only the space character
 ' ', so a tab, a no-break space or any other whitespace character that
 sits between two digits survives cleaning and disambiguation and makes
 the final conversion fail: `parse_price` answers `None` for such text.
 */
module PriceSpaces {
  import opened Wrappers
  import opened Text
  import opened Decimals
  import opened PriceText

  predicate IsDigitOrStray(ch: char) {
    IsDigit(ch) || IsStraySpace(ch)
  }

  /** The digits and the stray whitespace of `s`, in order. None of the
      steps before the conversion changes it, except that stripping may
      drop stray whitespace at either end. */
  function Trace(s: string): string {
    Filter(s, IsDigitOrStray)
  }

  /** Some stray whitespace character has a digit somewhere before it and
      a digit somewhere after it. */
  ghost predicate StrayBetweenDigits(u: string) {
    exists j :: 0 <= j < |u| && IsStraySpace(u[j]) && DigitsOf(u[..j]) != [] && DigitsOf(u[j + 1..]) != []
  }

  /** A stray whitespace character between two digits makes `parse_price`
      fail, whatever else the text holds. */
  lemma ParsePriceInnerWhitespace(a: string, w: char, b: string)
    requires IsSpace(w) && w != ' ' && DigitsOf(a) != [] && DigitsOf(b) != []
    ensures ParsePrice(Some(a + [w] + b)) == None
  {
    var t := a + [w] + b;
    var c := Clean(t);
    StrayInText(a, w, b);
    CleanKeepsSomeStray(t);
    DisambiguateFilter(c, IsDigitOrStray);
    ConvertedHasNoStray(Disambiguate(c));
  }

  /** The trace of `s` from its first digit to its last: every digit and
      every stray whitespace character that has a digit on both sides, in
      order. */
  function Inner(s: string): string {
    StripWith(Trace(s), IsStraySpace)
  }

  /** Cleaning keeps stray whitespace that lies between digits: each such
      character survives, in its place among the digits. */
  lemma CleanKeepsStray(t: string)
    ensures Inner(Clean(t)) == Inner(t)
    ensures StrayBetweenDigits(Trace(t)) ==> StrayBetweenDigits(Trace(Clean(t)))
  {
    var s0 := Strip(t);
    var u1 := Filter(s0, IsPriceChar);
    var s1 := Strip(u1);
    StripKeepsInner(t);
    FilterAbsorb(s0, IsPriceChar, IsDigitOrStray);
    StripKeepsInner(u1);
    FilterRemove(s1, ' ', IsDigitOrStray);
    if StrayBetweenDigits(Trace(t)) {
      CleanKeepsSomeStray(t);
    }
  }

  lemma CleanKeepsSomeStray(t: string)
    requires StrayBetweenDigits(Trace(t))
    ensures StrayBetweenDigits(Trace(Clean(t)))
  {
    var s0 := Strip(t);
    var u1 := Filter(s0, IsPriceChar);
    var s1 := Strip(u1);
    StripKeepsStray(t);
    FilterAbsorb(s0, IsPriceChar, IsDigitOrStray);
    StripKeepsStray(u1);
    FilterRemove(s1, ' ', IsDigitOrStray);
  }

  /** Stripping only drops stray whitespace outside the digits. */
  lemma StripKeepsInner(u: string)
    ensures Inner(Strip(u)) == Inner(u)
  {
    var m := Strip(u);
    var h, t := StripParts(u, IsSpace);
    FilterConcat(h, m, IsDigitOrStray);
    FilterConcat(h + m, t, IsDigitOrStray);
    TraceOfBlanks(h);
    TraceOfBlanks(t);
    StripAbsorb(Trace(h), Trace(m), Trace(t), IsStraySpace);
  }

  lemma {:induction false} TraceOfBlanks(w: string)
    requires forall i :: 0 <= i < |w| ==> IsSpace(w[i])
    ensures forall i :: 0 <= i < |Trace(w)| ==> IsStraySpace(Trace(w)[i])
  {
    if w != [] {
      TraceOfBlanks(w[1..]);
      var head := if IsDigitOrStray(w[0]) then [w[0]] else [];
      assert Trace(w) == head + Trace(w[1..]);
      assert IsSpace(w[0]);
    }
  }

  lemma StrayInText(a: string, w: char, b: string)
    requires IsStraySpace(w) && DigitsOf(a) != [] && DigitsOf(b) != []
    ensures StrayBetweenDigits(Trace(a + [w] + b))
  {
    FilterAround(a, w, b, IsDigitOrStray);
    FilterAbsorb(a, IsDigitOrStray, IsDigit);
    FilterAbsorb(b, IsDigitOrStray, IsDigit);
    StrayWitness(Trace(a), w, Trace(b));
  }

  lemma StrayWitness(x: string, c: char, y: string)
    requires IsStraySpace(c) && DigitsOf(x) != [] && DigitsOf(y) != []
    ensures StrayBetweenDigits(x + [c] + y)
  {
    var u := x + [c] + y;
    assert u[..|x|] == x;
    assert u[|x| + 1..] == y;
    assert u[|x|] == c;
  }

  /** Stripping cannot reach stray whitespace that has digits on both sides. */
  lemma StripKeepsStray(u: string)
    requires StrayBetweenDigits(Trace(u))
    ensures StrayBetweenDigits(Trace(Strip(u)))
  {
    var m := Strip(u);
    var h, t := StripParts(u, IsSpace);
    BlanksHaveNoDigits(h);
    BlanksHaveNoDigits(t);
    FilterConcat(h, m, IsDigitOrStray);
    FilterConcat(h + m, t, IsDigitOrStray);
    Sandwich(Trace(h), Trace(m), Trace(t));
  }

  lemma BlanksHaveNoDigits(w: string)
    requires forall i :: 0 <= i < |w| ==> IsSpace(w[i])
    ensures DigitsOf(Trace(w)) == []
  {
    FilterAbsorb(w, IsDigitOrStray, IsDigit);
    FilterNone(w, IsDigit);
  }

  /** Text without digits around `m` adds no digit on either side. */
  lemma Sandwich(h: string, m: string, t: string)
    requires DigitsOf(h) == [] && DigitsOf(t) == []
    requires StrayBetweenDigits(h + m + t)
    ensures StrayBetweenDigits(m)
  {
    var u := h + m + t;
    var j :| 0 <= j < |u| && IsStraySpace(u[j]) && DigitsOf(u[..j]) != [] && DigitsOf(u[j + 1..]) != [];
    assert u[..|h|] == h && u[|u| - |t|..] == t;
    PrefixNoDigits(u, h, j);
    SuffixNoDigits(u, t, j);
    SandwichAt(h, m, t, j);
  }

  lemma SandwichAt(h: string, m: string, t: string, j: nat)
    requires DigitsOf(h) == [] && DigitsOf(t) == [] && |h| <= j < |h| + |m|
    requires var u := h + m + t;
      IsStraySpace(u[j]) && DigitsOf(u[..j]) != [] && DigitsOf(u[j + 1..]) != []
    ensures StrayBetweenDigits(m)
  {
    var i := j - |h|;
    ThreeParts(h, m, t, j);
    FilterConcat(h, m[..i], IsDigit);
    FilterConcat(m[i + 1..], t, IsDigit);
    assert IsStraySpace(m[i]) && DigitsOf(m[..i]) != [] && DigitsOf(m[i + 1..]) != [];
  }

  /** The slices of `h + m + t` on either side of a position inside `m`. */
  lemma ThreeParts(h: string, m: string, t: string, j: nat)
    requires |h| <= j < |h| + |m|
    ensures var u, i := h + m + t, j - |h|;
      u[..j] == h + m[..i] && u[j + 1..] == m[i + 1..] + t && u[j] == m[i]
  {
    var u, i := h + m + t, j - |h|;
    var p, q := h + m[..i], m[i + 1..] + t;
    assert |p| == j && |q| == |u| - j - 1;
    forall k | 0 <= k < j ensures u[k] == p[k] {
      if k >= |h| {
        assert p[k] == m[..i][k - |h|];
      }
    }
    forall k | 0 <= k < |q| ensures u[j + 1 + k] == q[k] {
      if k < |m| - i - 1 {
        assert q[k] == m[i + 1..][k];
      } else {
        assert q[k] == t[k - (|m| - i - 1)];
      }
    }
    assert u[..j] == p;
    assert u[j + 1..] == q;
  }

  lemma PrefixNoDigits(u: string, x: string, j: nat)
    requires |x| <= |u| && u[..|x|] == x && DigitsOf(x) == [] && j <= |u|
    ensures j <= |x| ==> DigitsOf(u[..j]) == []
  {
    if j <= |x| {
      assert u[..j] == x[..j];
      assert x == x[..j] + x[j..];
      FilterConcat(x[..j], x[j..], IsDigit);
    }
  }

  lemma SuffixNoDigits(u: string, y: string, j: nat)
    requires |y| <= |u| && u[|u| - |y|..] == y && DigitsOf(y) == [] && j < |u|
    ensures j >= |u| - |y| ==> DigitsOf(u[j + 1..]) == []
  {
    if j >= |u| - |y| {
      var k := j + 1 - (|u| - |y|);
      assert u[j + 1..] == y[k..];
      assert y == y[..k] + y[k..];
      FilterConcat(y[..k], y[k..], IsDigit);
    }
  }

  /** What `float()` accepts has no stray whitespace between digits. */
  lemma ConvertedHasNoStray(n: string)
    ensures ToDecimal(n).Some? ==> !StrayBetweenDigits(Trace(n))
  {
    if ToDecimal(n).Some? {
      var core, lo := StripWith(FloatText(n), IsFloatSpace), Leading(FloatText(n), IsFloatSpace);
      ToDecimalShape(n, core, lo);
      var h, t := n[..lo], n[lo + |core|..];
      forall i | 0 <= i < |t| ensures IsFloatBlank(t[i]) {
        assert t[i] == n[lo + |core| + i];
      }
      NoStrayAroundLiteral(h, core, t);
    }
  }

  lemma NoStrayAroundLiteral(h: string, core: string, t: string)
    requires forall i :: 0 <= i < |h| ==> IsFloatBlank(h[i])
    requires forall i :: 0 <= i < |core| ==> IsDigit(core[i]) || core[i] == '.'
    requires forall i :: 0 <= i < |t| ==> IsFloatBlank(t[i])
    ensures !StrayBetweenDigits(Trace(h + core + t))
  {
    FloatBlanksHaveNoDigits(h);
    FloatBlanksHaveNoDigits(t);
    FilterConcat(h, core, IsDigitOrStray);
    FilterConcat(h + core, t, IsDigitOrStray);
    FilterCongruent(core, IsDigitOrStray, IsDigit);
    if StrayBetweenDigits(Trace(h + core + t)) {
      Sandwich(Trace(h), Trace(core), Trace(t));
    }
  }

  lemma FloatBlanksHaveNoDigits(w: string)
    requires forall i :: 0 <= i < |w| ==> IsFloatBlank(w[i])
    ensures DigitsOf(Trace(w)) == []
  {
    FilterAbsorb(w, IsDigitOrStray, IsDigit);
    FilterNone(w, IsDigit);
  }

  // ---------------------------------------------------------------------
  // Disambiguation only touches separators
  // ---------------------------------------------------------------------

  /** Whatever disambiguation does, it does to separators: a filter that
      drops both separators sees no change. */
  lemma DisambiguateFilter(s: string, keep: char -> bool)
    requires !keep(',') && !keep('.')
    ensures Filter(Disambiguate(s), keep) == Filter(s, keep)
  {
    if ',' in s && '.' in s {
      FilterRemove(s, '.', keep);
      FilterRemove(s, ',', keep);
      ReplaceDropped(Remove(s, '.'), ',', '.', keep);
    } else {
      var s1 := CommaStep(s);
      if ',' in s && '.' !in s {
        if Count(s, ',') > 1 {
          KeepLastDropped(s, ',', keep);
        } else {
          ReplaceDropped(s, ',', '.', keep);
        }
      }
      assert Filter(s1, keep) == Filter(s, keep);
      if '.' in s1 && Count(s1, '.') > 1 {
        KeepLastDropped(s1, '.', keep);
      }
      assert Disambiguate(s) == PointStep(s1);
    }
  }

  lemma KeepLastDropped(s: string, sep: char, keep: char -> bool)
    requires sep in s && !keep(sep) && !keep('.')
    ensures Filter(KeepLastAsPoint(s, sep), keep) == Filter(s, keep)
  {
    var i := RFind(s, sep);
    SplitAt(s, sep, i);
    var a, b := s[..i], s[i + 1..];
    KeepLastSplit(a, sep, b);
    FilterAroundDropped(Remove(a, sep), '.', b, keep);
    FilterRemove(a, sep, keep);
    FilterAroundDropped(a, sep, b, keep);
  }
}

=== FILE: text.dfy ===
/**
 The character classes and the Python `str` operations that the price
 normaliser is built from, over `string` (a `seq<char>`).
 */
module Text {

  /** An ASCII decimal digit: how this model reads the regex class `\d`. */
  predicate IsDigit(ch: char) {
    '0' <= ch <= '9'
  }

  /** Python's `str.isspace`, which is also what the regex class `\s` and
      `str.strip()` use: the ASCII controls 9-13 and 28-31, the space, and
      the Unicode space and separator characters. (`float()` skips a
      narrower set; see `Decimals.IsFloatSpace`.) */
  predicate IsSpace(ch: char) {
    var n := ch as int;
    || n == 32 || 9 <= n <= 13 || 28 <= n <= 31
    || n == 0x85 || n == 0xA0 || n == 0x1680 || 0x2000 <= n <= 0x200A
    || n == 0x2028 || n == 0x2029 || n == 0x202F || n == 0x205F || n == 0x3000
  }

  /** One of the two characters a price may use to group digits or to mark
      the decimal point. */
  predicate IsSeparator(ch: char) {
    ch == ',' || ch == '.'
  }

  /** The characters of `s` satisfying `keep`, in order. */
  function Filter(s: string, keep: char -> bool): (r: string)
    ensures |r| <= |s|
    ensures forall i :: 0 <= i < |r| ==> keep(r[i])
  {
    if s == [] then []
    else
      assert s == [s[0]] + s[1..];
      (if keep(s[0]) then [s[0]] else []) + Filter(s[1..], keep)
  }

  /** Python's `s.replace(x, "")`: every occurrence of `x` deleted. */
  function Remove(s: string, x: char): (r: string)
    ensures x !in r
  {
    Filter(s, ch => ch != x)
  }

  /** Python's `s.replace(a, b)` for single characters. */
  function Replace(s: string, a: char, b: char): (r: string)
    ensures |r| == |s|
    ensures forall i :: 0 <= i < |s| ==> r[i] == (if s[i] == a then b else s[i])
  {
    if s == [] then [] else [if s[0] == a then b else s[0]] + Replace(s[1..], a, b)
  }

  /** Python's `s.count(x)` for a single character. */
  function Count(s: string, x: char): (n: nat)
    ensures n <= |s|
    ensures n == 0 <==> x !in s
  {
    if s == [] then 0
    else
      assert s == [s[0]] + s[1..];
      (if s[0] == x then 1 else 0) + Count(s[1..], x)
  }

  /** Python's `s.find(x)`: the first index of `x`, or -1. */
  function Find(s: string, x: char): (i: int)
    ensures -1 <= i < |s|
    ensures i == -1 <==> x !in s
    ensures 0 <= i ==> s[i] == x && x !in s[..i]
  {
    if s == [] then -1
    else if s[0] == x then 0
    else
      assert s == [s[0]] + s[1..];
      var j := Find(s[1..], x);
      if j < 0 then -1
      else
        assert s[..j + 1] == [s[0]] + s[1..][..j];
        j + 1
  }

  /** Python's `s.rfind(x)`: the last index of `x`, or -1. */
  function RFind(s: string, x: char): (i: int)
    ensures -1 <= i < |s|
    ensures i == -1 <==> x !in s
    ensures 0 <= i ==> s[i] == x && x !in s[i + 1..]
  {
    if s == [] then -1
    else if s[|s| - 1] == x then |s| - 1
    else
      assert s == s[..|s| - 1] + [s[|s| - 1]];
      var j := RFind(s[..|s| - 1], x);
      if j < 0 then j
      else
        assert s[j + 1..] == s[..|s| - 1][j + 1..] + [s[|s| - 1]];
        j
  }

  /** Python's `s.split(x)`: the pieces between occurrences of `x`. */
  function Split(s: string, x: char): (parts: seq<string>)
    ensures |parts| >= 1
    ensures forall i :: 0 <= i < |parts| ==> x !in parts[i]
    decreases |s|
  {
    var i := Find(s, x);
    if i < 0 then [s] else [s[..i]] + Split(s[i + 1..], x)
  }

  /** Python's `"".join(parts)`. */
  function Concat(parts: seq<string>): string {
    if parts == [] then [] else parts[0] + Concat(parts[1..])
  }

  /** The number of leading `ws` characters of `s`. */
  function Leading(s: string, ws: char -> bool): (n: nat)
    ensures n <= |s|
    ensures forall i :: 0 <= i < n ==> ws(s[i])
    ensures n < |s| ==> !ws(s[n])
  {
    if s != [] && ws(s[0]) then 1 + Leading(s[1..], ws) else 0
  }

  /** The number of trailing `ws` characters of `s`. */
  function Trailing(s: string, ws: char -> bool): (n: nat)
    ensures n <= |s|
    ensures forall i :: |s| - n <= i < |s| ==> ws(s[i])
    ensures n < |s| ==> !ws(s[|s| - n - 1])
  {
    if s != [] && ws(s[|s| - 1]) then 1 + Trailing(s[..|s| - 1], ws) else 0
  }

  /** Python's `s.lstrip()`, for the whitespace class `ws`. */
  function TrimLeft(s: string, ws: char -> bool): (r: string)
    ensures r != [] ==> !ws(r[0])
  {
    s[Leading(s, ws)..]
  }

  /** Python's `s.rstrip()`, for the whitespace class `ws`. */
  function TrimRight(s: string, ws: char -> bool): (r: string)
    ensures r != [] ==> !ws(r[|r| - 1])
  {
    s[..|s| - Trailing(s, ws)]
  }

  /** Both ends trimmed of the whitespace class `ws`; `StripShape` says
      which slice of `s` is left. */
  function StripWith(s: string, ws: char -> bool): (r: string)
    ensures |r| <= |s|
    ensures r != [] ==> !ws(r[0]) && !ws(r[|r| - 1])
  {
    TrimRight(TrimLeft(s, ws), ws)
  }

  /** Python's `s.strip()`. */
  function Strip(s: string): string {
    StripWith(s, IsSpace)
  }

  // ---------------------------------------------------------------------
  // Lemmas about the operations above
  // ---------------------------------------------------------------------

  lemma {:induction false} FilterConcat(a: string, b: string, keep: char -> bool)
    ensures Filter(a + b, keep) == Filter(a, keep) + Filter(b, keep)
  {
    if a != [] {
      assert (a + b)[1..] == a[1..] + b;
      FilterConcat(a[1..], b, keep);
    } else {
      assert a + b == b;
    }
  }

  lemma {:induction false} FilterAll(s: string, keep: char -> bool)
    requires forall i :: 0 <= i < |s| ==> keep(s[i])
    ensures Filter(s, keep) == s
  {
    if s != [] {
      FilterAll(s[1..], keep);
    }
  }

  lemma {:induction false} FilterNone(s: string, keep: char -> bool)
    requires forall i :: 0 <= i < |s| ==> !keep(s[i])
    ensures Filter(s, keep) == []
  {
    if s != [] {
      FilterNone(s[1..], keep);
    }
  }

  /** Filtering depends only on how the predicate judges the characters present. */
  lemma {:induction false} FilterCongruent(s: string, p: char -> bool, q: char -> bool)
    requires forall i :: 0 <= i < |s| ==> p(s[i]) == q(s[i])
    ensures Filter(s, p) == Filter(s, q)
  {
    if s != [] {
      FilterCongruent(s[1..], p, q);
    }
  }

  lemma {:induction false} FilterCommute(s: string, p: char -> bool, q: char -> bool)
    ensures Filter(Filter(s, p), q) == Filter(Filter(s, q), p)
  {
    if s != [] {
      FilterCommute(s[1..], p, q);
      var h := [s[0]];
      FilterConcat(if p(s[0]) then h else [], Filter(s[1..], p), q);
      FilterConcat(if q(s[0]) then h else [], Filter(s[1..], q), p);
    }
  }

  /** A second, stricter filter makes the first one redundant. */
  lemma {:induction false} FilterAbsorb(s: string, p: char -> bool, q: char -> bool)
    requires forall ch :: q(ch) ==> p(ch)
    ensures Filter(Filter(s, p), q) == Filter(s, q)
  {
    if s != [] {
      FilterAbsorb(s[1..], p, q);
      FilterConcat(if p(s[0]) then [s[0]] else [], Filter(s[1..], p), q);
    }
  }

  lemma {:induction false} CountConcat(a: string, b: string, x: char)
    ensures Count(a + b, x) == Count(a, x) + Count(b, x)
  {
    if a != [] {
      assert (a + b)[1..] == a[1..] + b;
      CountConcat(a[1..], b, x);
    } else {
      assert a + b == b;
    }
  }

  /** Filtering keeps every occurrence of a kept character and none of a dropped one. */
  lemma {:induction false} CountFilter(s: string, keep: char -> bool, x: char)
    ensures Count(Filter(s, keep), x) == if keep(x) then Count(s, x) else 0
  {
    if s != [] {
      CountFilter(s[1..], keep, x);
      CountConcat(if keep(s[0]) then [s[0]] else [], Filter(s[1..], keep), x);
    }
  }

  lemma {:induction false} ReplaceConcat(a: string, b: string, x: char, y: char)
    ensures Replace(a + b, x, y) == Replace(a, x, y) + Replace(b, x, y)
  {
    var l, r := Replace(a + b, x, y), Replace(a, x, y) + Replace(b, x, y);
    assert |l| == |r|;
    forall i | 0 <= i < |l|
      ensures l[i] == r[i]
    {
      if i < |a| {
        assert (a + b)[i] == a[i];
      } else {
        assert (a + b)[i] == b[i - |a|];
      }
    }
  }

  /** Replacing a character that does not occur changes nothing. */
  lemma ReplaceAbsent(s: string, x: char, y: char)
    requires x !in s
    ensures Replace(s, x, y) == s
  {
    var r := Replace(s, x, y);
    assert forall i :: 0 <= i < |s| ==> r[i] == s[i];
  }

  /** After replacing `x` by `y`, the `y`s are the old `x`s and `y`s together. */
  lemma {:induction false} CountReplace(s: string, x: char, y: char)
    requires x != y
    ensures Count(Replace(s, x, y), y) == Count(s, x) + Count(s, y)
  {
    if s != [] {
      CountReplace(s[1..], x, y);
      assert Replace(s, x, y)[1..] == Replace(s[1..], x, y);
    }
  }

  /** Replacing one dropped character by another is invisible to the filter. */
  lemma {:induction false} ReplaceDropped(s: string, x: char, y: char, keep: char -> bool)
    requires !keep(x) && !keep(y)
    ensures Filter(Replace(s, x, y), keep) == Filter(s, keep)
  {
    if s != [] {
      ReplaceDropped(s[1..], x, y, keep);
      assert Replace(s, x, y)[1..] == Replace(s[1..], x, y);
    }
  }

  /** Replacing one kept character by another commutes with filtering. */
  lemma {:induction false} ReplaceFilter(s: string, x: char, y: char, keep: char -> bool)
    requires keep(x) && keep(y)
    ensures Filter(Replace(s, x, y), keep) == Replace(Filter(s, keep), x, y)
  {
    if s != [] {
      ReplaceFilter(s[1..], x, y, keep);
      var h := if s[0] == x then y else s[0];
      assert Replace(s, x, y) == [h] + Replace(s[1..], x, y);
      ReplaceConcat(if keep(s[0]) then [s[0]] else [], Filter(s[1..], keep), x, y);
    }
  }

  /** The strip is the slice of `s` between a run of leading and a run of
      trailing `ws` characters. */
  lemma StripShape(s: string, ws: char -> bool)
    ensures var r, lo := StripWith(s, ws), Leading(s, ws);
      && lo + |r| <= |s| && r == s[lo..lo + |r|]
      && (forall i :: 0 <= i < lo ==> ws(s[i]))
      && (forall i :: lo + |r| <= i < |s| ==> ws(s[i]))
  {
    var lo := Leading(s, ws);
    var t := s[lo..];
    var r := t[..|t| - Trailing(t, ws)];
    assert s[lo..][..|r|] == s[lo..lo + |r|];
    forall i | lo + |r| <= i < |s| ensures ws(s[i]) {
      assert s[i] == t[i - lo];
      assert ws(t[i - lo]);
    }
  }

  /** The stripped text is the slice of `s` that starts at `lo`. */
  lemma StripSlice(s: string, ws: char -> bool, r: string, lo: nat)
    requires r == StripWith(s, ws) && lo == Leading(s, ws)
    ensures lo + |r| <= |s| && r == s[lo..lo + |r|]
  {
    var t := TrimLeft(s, ws);
    SliceCompose(s, lo, t, |t| - Trailing(t, ws), r);
  }

  /** A prefix of a suffix of `s` is a slice of `s`. */
  lemma SliceCompose(s: string, lo: nat, t: string, n: nat, r: string)
    requires lo <= |s| && t == s[lo..] && n <= |t| && r == t[..n]
    ensures lo + |r| <= |s| && r == s[lo..lo + |r|]
  {
    assert s[lo..][..n] == s[lo..lo + n];
  }

  /** A string is its three slices at `lo` and `hi` put back together. */
  lemma SliceThree(s: string, lo: nat, hi: nat)
    requires lo <= hi <= |s|
    ensures s == s[..lo] + s[lo..hi] + s[hi..]
  {
    var c := s[..lo] + s[lo..hi] + s[hi..];
    assert |c| == |s|;
    forall i | 0 <= i < |s| ensures c[i] == s[i] {
      if i < lo {
      } else if i < hi {
        assert c[i] == s[lo..hi][i - lo];
      } else {
        assert c[i] == s[hi..][i - hi];
      }
    }
  }

  /** The strip with what it removed on either side. */
  lemma StripParts(s: string, ws: char -> bool) returns (h: string, t: string)
    ensures s == h + StripWith(s, ws) + t
    ensures forall i :: 0 <= i < |h| ==> ws(h[i])
    ensures forall i :: 0 <= i < |t| ==> ws(t[i])
  {
    var r, lo := StripWith(s, ws), Leading(s, ws);
    StripShape(s, ws);
    SliceThree(s, lo, lo + |r|);
    h, t := s[..lo], s[lo + |r|..];
    forall i | 0 <= i < |t| ensures ws(t[i]) {
      assert t[i] == s[lo + |r| + i];
    }
  }

  /** Stripping removes only whitespace, so it is invisible to any filter
      that drops whitespace. */
  lemma StripFilter(s: string, ws: char -> bool, keep: char -> bool)
    requires forall ch :: ws(ch) ==> !keep(ch)
    ensures Filter(StripWith(s, ws), keep) == Filter(s, keep)
  {
    var r, lo := StripWith(s, ws), Leading(s, ws);
    StripShape(s, ws);
    var head, tail := s[..lo], s[lo + |r|..];
    SliceThree(s, lo, lo + |r|);
    forall i | 0 <= i < |head| ensures ws(head[i]) {
      assert head[i] == s[i];
    }
    forall i | 0 <= i < |tail| ensures ws(tail[i]) {
      assert tail[i] == s[lo + |r| + i];
    }
    FilterSpaces(head, ws, keep);
    FilterSpaces(tail, ws, keep);
    FilterConcat(head + r, tail, keep);
    FilterConcat(head, r, keep);
  }

  lemma FilterSpaces(w: string, ws: char -> bool, keep: char -> bool)
    requires forall ch :: ws(ch) ==> !keep(ch)
    requires forall i :: 0 <= i < |w| ==> ws(w[i])
    ensures Filter(w, keep) == []
  {
    FilterNone(w, keep);
  }

  /** Stripping `w1 + s + w2`, where the `w`s are whitespace and `s` has
      none at its ends, leaves `s`. */
  lemma StripAround(w1: string, s: string, w2: string, ws: char -> bool)
    requires forall i :: 0 <= i < |w1| ==> ws(w1[i])
    requires forall i :: 0 <= i < |w2| ==> ws(w2[i])
    requires s == [] || (!ws(s[0]) && !ws(s[|s| - 1]))
    ensures StripWith(w1 + s + w2, ws) == s
  {
    var t := w1 + s + w2;
    var r, lo := StripWith(t, ws), Leading(t, ws);
    StripShape(t, ws);
    if s != [] {
      assert t[|w1|] == s[0];
      assert t[|w1| + |s| - 1] == s[|s| - 1];
      assert r == t[|w1|..|w1| + |s|];
    }
  }

  /** Whitespace added at either end does not change the strip. */
  lemma StripAbsorb(a: string, x: string, b: string, ws: char -> bool)
    requires forall i :: 0 <= i < |a| ==> ws(a[i])
    requires forall i :: 0 <= i < |b| ==> ws(b[i])
    ensures StripWith(a + x + b, ws) == StripWith(x, ws)
  {
    var h, t := StripParts(x, ws);
    var c := StripWith(x, ws);
    var w1, w2 := a + h, t + b;
    assert a + x + b == w1 + c + w2;
    forall i | 0 <= i < |w1| ensures ws(w1[i]) {
      if i >= |a| {
        assert w1[i] == h[i - |a|];
      }
    }
    forall i | 0 <= i < |w2| ensures ws(w2[i]) {
      if i >= |t| {
        assert w2[i] == b[i - |t|];
      }
    }
    StripAround(w1, c, w2, ws);
  }

  /** A string without whitespace is its own strip. */
  lemma StripNoSpace(s: string, ws: char -> bool)
    requires forall i :: 0 <= i < |s| ==> !ws(s[i])
    ensures StripWith(s, ws) == s
  {
    StripShape(s, ws);
  }

  /** `find` looks no further than the first occurrence. */
  lemma FindConcat(a: string, c: string, x: char)
    ensures Find(a + c, x) == if x in a then Find(a, x) else if x in c then |a| + Find(c, x) else -1
  {
    if x in a {
      FindInPrefix(a, c, x);
    } else if x in c {
      FindInSuffix(a, c, x);
    } else {
      assert x !in a + c;
    }
  }

  lemma FindInPrefix(a: string, c: string, x: char)
    requires x in a
    ensures Find(a + c, x) == Find(a, x)
  {
    var j := Find(a, x);
    assert (a + c)[j] == x;
    assert (a + c)[..j] == a[..j];
  }

  lemma {:induction false} FindInSuffix(a: string, c: string, x: char)
    requires x !in a && x in c
    ensures Find(a + c, x) == |a| + Find(c, x)
    decreases |a|
  {
    if a == [] {
      assert a + c == c;
    } else {
      var s := a + c;
      assert s[0] == a[0] && s[1..] == a[1..] + c;
      assert x !in a[1..];
      FindInSuffix(a[1..], c, x);
    }
  }

  /** Splitting at `x` and joining all pieces but the last keeps the text
      before the last `x` with its `x`s deleted; the last piece is the text
      after it. */
  lemma {:induction false} SplitLast(a: string, x: char, b: string)
    requires x !in b
    ensures var parts := Split(a + [x] + b, x);
      && Concat(parts[..|parts| - 1]) == Remove(a, x)
      && parts[|parts| - 1] == b
    decreases |a|
  {
    if x !in a {
      SplitLastOnly(a, x, b);
    } else {
      var i := Find(a, x);
      FindSplit(a, x);
      var a1, a2 := a[..i], a[i + 1..];
      SplitLast(a2, x, b);
      SplitLastStep(a, a1, x, a2, b);
    }
  }

  /** With a single `x` the pieces are the text before it and the text after it. */
  lemma SplitLastOnly(a: string, x: char, b: string)
    requires x !in a && x !in b
    ensures var parts := Split(a + [x] + b, x);
      && Concat(parts[..|parts| - 1]) == Remove(a, x)
      && parts[|parts| - 1] == b
  {
    SplitFirst(a, x, b);
    assert Split(b, x) == [b];
    RemoveAbsent(a, x);
    assert ([a] + [b])[..1] == [a];
    ConcatCons(a, []);
  }

  /** The text around the first `x`. */
  lemma FindSplit(a: string, x: char)
    requires x in a
    ensures var i := Find(a, x);
      0 <= i < |a| && a == a[..i] + [x] + a[i + 1..] && x !in a[..i]
  {
    SplitAt(a, x, Find(a, x));
  }

  /** A string around a position holding `x`: the prefix, `x`, the suffix. */
  lemma SplitAt(a: string, x: char, i: nat)
    requires i < |a| && a[i] == x
    ensures a == a[..i] + [x] + a[i + 1..]
  {
    var c := a[..i] + [x] + a[i + 1..];
    assert |c| == |a|;
    forall j | 0 <= j < |a| ensures c[j] == a[j] {
      if j < i {
        assert c[j] == a[..i][j];
      } else if j > i {
        assert c[j] == a[i + 1..][j - i - 1];
      }
    }
  }

  /** One step of `SplitLast`: the piece before the first `x` joins the rest. */
  lemma SplitLastStep(a: string, a1: string, x: char, a2: string, b: string)
    requires a == a1 + [x] + a2 && x !in a1
    requires var rest := Split(a2 + [x] + b, x);
      Concat(rest[..|rest| - 1]) == Remove(a2, x) && rest[|rest| - 1] == b
    ensures var parts := Split(a + [x] + b, x);
      && Concat(parts[..|parts| - 1]) == Remove(a, x)
      && parts[|parts| - 1] == b
  {
    var c := a2 + [x] + b;
    assert a + [x] + b == a1 + [x] + c;
    SplitFirst(a1, x, c);
    JoinCons(a1, Split(c, x));
    RemoveAround(a1, x, a2);
  }

  /** All pieces but the last, joined, after one more piece in front. */
  lemma JoinCons(p: string, rest: seq<string>)
    requires |rest| >= 1
    ensures var parts := [p] + rest;
      && Concat(parts[..|parts| - 1]) == p + Concat(rest[..|rest| - 1])
      && parts[|parts| - 1] == rest[|rest| - 1]
  {
    var parts := [p] + rest;
    assert parts[..|parts| - 1] == [p] + rest[..|rest| - 1];
    ConcatCons(p, rest[..|rest| - 1]);
  }

  /** The first piece of a split is the text before the first `x`. */
  lemma SplitFirst(a: string, x: char, c: string)
    requires x !in a
    ensures Split(a + [x] + c, x) == [a] + Split(c, x)
  {
    var s := a + [x] + c;
    assert s == a + ([x] + c);
    FindConcat(a, [x] + c, x);
    assert s[..|a|] == a;
    assert s[|a| + 1..] == c;
  }

  lemma ConcatCons(p: string, parts: seq<string>)
    ensures Concat([p] + parts) == p + Concat(parts)
  {
    assert ([p] + parts)[1..] == parts;
  }

  /** Deleting `x` from `a1 + [x] + a2` when `a1` holds no `x`. */
  lemma RemoveAround(a1: string, x: char, a2: string)
    requires x !in a1
    ensures Remove(a1 + [x] + a2, x) == a1 + Remove(a2, x)
  {
    RemoveConcat(a1 + [x], a2, x);
    RemoveConcat(a1, [x], x);
    RemoveAbsent(a1, x);
    RemoveSelf(x);
    assert a1 + [] + Remove(a2, x) == a1 + Remove(a2, x);
  }

  lemma RemoveSelf(x: char)
    ensures Remove([x], x) == []
  {
    FilterNone([x], ch => ch != x);
  }

  lemma RemoveConcat(a: string, b: string, x: char)
    ensures Remove(a + b, x) == Remove(a, x) + Remove(b, x)
  {
    FilterConcat(a, b, ch => ch != x);
  }

  /** Deleting a character that does not occur changes nothing. */
  lemma RemoveAbsent(s: string, x: char)
    requires x !in s
    ensures Remove(s, x) == s
  {
    FilterAll(s, ch => ch != x);
  }

  /** A property every character of `s` has, every character of a filter of `s` has. */
  lemma {:induction false} FilterKeeps(s: string, keep: char -> bool, prop: char -> bool)
    requires forall i :: 0 <= i < |s| ==> prop(s[i])
    ensures forall i :: 0 <= i < |Filter(s, keep)| ==> prop(Filter(s, keep)[i])
  {
    if s != [] {
      FilterKeeps(s[1..], keep, prop);
    }
  }

  /** A property every character of `s` has, every character of its strip has. */
  lemma StripKeeps(s: string, ws: char -> bool, prop: char -> bool)
    requires forall i :: 0 <= i < |s| ==> prop(s[i])
    ensures forall i :: 0 <= i < |StripWith(s, ws)| ==> prop(StripWith(s, ws)[i])
  {
    var r, lo := StripWith(s, ws), Leading(s, ws);
    StripShape(s, ws);
    forall i | 0 <= i < |r| ensures prop(r[i]) {
      assert r[i] == s[lo + i];
    }
  }

  /** A kept character between two texts stays between their filters. */
  lemma FilterAround(a: string, x: char, b: string, keep: char -> bool)
    requires keep(x)
    ensures Filter(a + [x] + b, keep) == Filter(a, keep) + [x] + Filter(b, keep)
  {
    FilterConcat(a + [x], b, keep);
    FilterConcat(a, [x], keep);
    assert Filter([x], keep) == [x] + Filter([], keep);
  }

  /** Filtering around a character the filter drops. */
  lemma FilterAroundDropped(a: string, x: char, b: string, keep: char -> bool)
    requires !keep(x)
    ensures Filter(a + [x] + b, keep) == Filter(a, keep) + Filter(b, keep)
  {
    FilterConcat(a + [x], b, keep);
    FilterConcat(a, [x], keep);
    FilterNone([x], keep);
  }

  lemma RemoveFilter(s: string, x: char, keep: char -> bool)
    ensures Filter(Remove(s, x), keep) == Remove(Filter(s, keep), x)
  {
    FilterCommute(s, ch => ch != x, keep);
  }

  /** Deleting a character the filter drops anyway changes nothing. */
  lemma FilterRemove(s: string, x: char, keep: char -> bool)
    requires !keep(x)
    ensures Filter(Remove(s, x), keep) == Filter(s, keep)
  {
    FilterAbsorb(s, ch => ch != x, keep);
  }

  lemma CountRemove(s: string, x: char, y: char)
    ensures Count(Remove(s, x), y) == if y == x then 0 else Count(s, y)
  {
    CountFilter(s, ch => ch != x, y);
  }

  lemma RemoveKeeps(s: string, x: char, prop: char -> bool)
    requires forall i :: 0 <= i < |s| ==> prop(s[i])
    ensures forall i :: 0 <= i < |Remove(s, x)| ==> prop(Remove(s, x)[i])
  {
    FilterKeeps(s, ch => ch != x, prop);
  }

  /** Deleting `x` keeps exactly the characters `keep` accepts, when `keep`
      rejects just `x` among the characters present. */
  lemma RemoveCongruent(s: string, x: char, keep: char -> bool)
    requires forall i :: 0 <= i < |s| ==> (s[i] != x) == keep(s[i])
    ensures Remove(s, x) == Filter(s, keep)
  {
    FilterCongruent(s, ch => ch != x, keep);
  }

  /** Deleting `x` around another character. */
  lemma RemoveAroundOther(a: string, y: char, b: string, x: char)
    requires y != x
    ensures Remove(a + [y] + b, x) == Remove(a, x) + [y] + Remove(b, x)
  {
    FilterAround(a, y, b, ch => ch != x);
  }

  lemma ReplaceAround(a: string, y: char, b: string, x: char, z: char)
    ensures Replace(a + [y] + b, x, z) == Replace(a, x, z) + [if y == x then z else y] + Replace(b, x, z)
  {
    ReplaceConcat(a + [y], b, x, z);
    ReplaceConcat(a, [y], x, z);
  }
}

=== FILE: watcher.dfy ===
/**
 The check-record-alert pipeline: `fetch_price` classifies one product check
 into a price and a status, and `run_once` folds over the product list,
 appending one observation per product to the price history and raising an
 alert flag when some current price is at or below its target.

 Fetching a page and selecting the price element are not modelled: they are
 the oracles `fetch` (url to markup, or the text of the failure) and `select`
 (markup and CSS selector to the stripped text of the first match, if any).
 The price history is a sequence that is only ever appended to.
 */
module Watcher {
  import opened Wrappers
  import opened Text
  import opened Decimals
  import opened PriceText

  // ---------------------------------------------------------------------
  // Checking one product
  // ---------------------------------------------------------------------

  /** The outcome of one check, stored as text with every observation. */
  datatype Status = Ok | FetchError(cause: string) | SelectorNotFound | ParseFailed

  /** The status text written to the price history. */
  function StatusText(s: Status): string {
    match s
    case Ok => "ok"
    case FetchError(cause) => "fetch_error: " + cause
    case SelectorNotFound => "selector_not_found"
    case ParseFailed => "parse_failed"
  }

  /** A page fetcher: the markup, or the text of the request failure. */
  type Fetch = string -> Result<string, string>

  /** An element selector: the stripped text of the first element of the
      markup matching the CSS selector, if one matches. */
  type Select = (string, string) -> Option<string>

  /** What `fetch_price` returns. */
  datatype Check = Check(price: Option<Decimal>, status: Status)

  /** `fetch_price`: a failed fetch, a missing element and an unparsable
      text each give no price and their own status; only a parsed price
      gives status `ok`. */
  function FetchPrice(url: string, selector: string, fetch: Fetch, select: Select): (r: Check)
    ensures r.price.Some? <==> r.status == Ok
  {
    match fetch(url)
    case Failure(cause) => Check(None, FetchError(cause))
    case Success(markup) =>
      match select(markup, selector)
      case None => Check(None, SelectorNotFound)
      case Some(text) =>
        match ParsePrice(Some(text))
        case None => Check(None, ParseFailed)
        case Some(price) => Check(Some(price), Ok)
  }

  /** The price text a check reads, when the fetch and the selection succeed. */
  function PriceTextOf(url: string, selector: string, fetch: Fetch, select: Select): Option<string> {
    match fetch(url)
    case Failure(_) => None
    case Success(markup) => select(markup, selector)
  }

  // ---------------------------------------------------------------------
  // One run
  // ---------------------------------------------------------------------

  /** One entry of the product list. `target` is the target price when the
      entry has one. */
  datatype Product = Product(name: Option<string>, url: string, selector: string, target: Option<real>)

  /** One row of the price history (the timestamp is not modelled). */
  datatype Observation = Observation(
    name: string, url: string, price: Option<Decimal>, target: Option<real>,
    selector: string, status: Status)

  /** The name recorded for a product: its own name, unless that is absent
      or empty, and then its url. */
  function DisplayName(p: Product): (n: string)
    ensures n == p.url || (p.name == Some(n) && n != [])
    ensures p.name.None? || p.name == Some([]) ==> n == p.url
    ensures p.name.Some? && p.name.value != [] ==> n == p.name.value
  {
    if p.name.Some? && p.name.value != [] then p.name.value else p.url
  }

  /** Check one product and build the row recorded for it. */
  function Observe(p: Product, fetch: Fetch, select: Select): (o: Observation)
    ensures o.url == p.url && o.selector == p.selector && o.target == p.target
    ensures o.name == DisplayName(p)
    ensures Check(o.price, o.status) == FetchPrice(p.url, p.selector, fetch, select)
    ensures o.price.Some? <==> o.status == Ok
  {
    var c := FetchPrice(p.url, p.selector, fetch, select);
    Observation(DisplayName(p), p.url, c.price, p.target, p.selector, c.status)
  }

  /** The alert test of `run_once`: a successful check with a target and a
      price at or below it. */
  predicate Alerts(o: Observation) {
    o.status == Ok && o.target.Some? && o.price.Some? && o.price.value.Value() <= o.target.value
  }

  /** How a run ends: without products nothing is checked; otherwise every
      product was checked and `anyAlert` says whether an alert was raised. */
  datatype Outcome = NoProducts | Checked(anyAlert: bool)

  datatype Run = Run(history: seq<Observation>, outcome: Outcome)

  /** Some product of `ps` raises an alert. */
  ghost predicate SomeAlert(ps: seq<Product>, fetch: Fetch, select: Select) {
    exists i :: 0 <= i < |ps| && Alerts(Observe(ps[i], fetch, select))
  }

  /** Some recorded row raises an alert. */
  ghost predicate AnyAlerts(rows: seq<Observation>) {
    exists i :: 0 <= i < |rows| && Alerts(rows[i])
  }

  /** The rows one pass over the products records, and its alert flag. */
  datatype Sweep = Sweep(rows: seq<Observation>, anyAlert: bool)

  /** The loop of `run_once`: each product is checked and its row recorded
      in list order, and the alert flag is or-ed with each row's alert test. */
  function CheckAll(ps: seq<Product>, fetch: Fetch, select: Select): (s: Sweep)
    ensures |s.rows| == |ps|
    ensures forall i :: 0 <= i < |ps| ==> s.rows[i] == Observe(ps[i], fetch, select)
    ensures s.anyAlert <==> AnyAlerts(s.rows)
  {
    if ps == [] then Sweep([], false)
    else
      var o := Observe(ps[0], fetch, select);
      var rest := CheckAll(ps[1..], fetch, select);
      AnyAlertsCons(o, rest.rows);
      assert forall i :: 1 <= i < |ps| ==> ps[i] == ps[1..][i - 1];
      Sweep([o] + rest.rows, Alerts(o) || rest.anyAlert)
  }

  lemma AnyAlertsCons(o: Observation, rows: seq<Observation>)
    ensures AnyAlerts([o] + rows) <==> Alerts(o) || AnyAlerts(rows)
  {
    var all := [o] + rows;
    if Alerts(o) {
      assert all[0] == o;
    }
    if AnyAlerts(rows) {
      var i :| 0 <= i < |rows| && Alerts(rows[i]);
      assert all[i + 1] == rows[i];
    }
    if AnyAlerts(all) && !Alerts(o) {
      var i :| 0 <= i < |all| && Alerts(all[i]);
      assert rows[i - 1] == all[i];
    }
  }

  /** `run_once` on the product list read from the configuration (`None`
      when the list is missing or null). An empty or missing list ends the
      run before anything is fetched or recorded; otherwise one row per
      product is appended to the history, and the run alerts when some
      product does. */
  function RunOnce(products: Option<seq<Product>>, fetch: Fetch, select: Select, history: seq<Observation>): (r: Run)
    ensures products.None? || products == Some([]) <==> r.outcome == NoProducts
    ensures r.outcome == NoProducts ==> r.history == history
    ensures r.outcome.Checked? ==>
      var ps := products.value;
      && |r.history| == |history| + |ps| && r.history[..|history|] == history
      && (forall i :: 0 <= i < |ps| ==> r.history[|history| + i] == Observe(ps[i], fetch, select))
      && (r.outcome.anyAlert <==> SomeAlert(ps, fetch, select))
  {
    match products
    case None => Run(history, NoProducts)
    case Some(ps) =>
      if ps == [] then Run(history, NoProducts)
      else
        var s := CheckAll(ps, fetch, select);
        RowAlerts(ps, fetch, select, s.rows);
        assert (history + s.rows)[..|history|] == history;
        Run(history + s.rows, Checked(s.anyAlert))
  }

  /** The rows of the products alert exactly when some product does. */
  lemma RowAlerts(ps: seq<Product>, fetch: Fetch, select: Select, rows: seq<Observation>)
    requires |rows| == |ps| && forall i :: 0 <= i < |ps| ==> rows[i] == Observe(ps[i], fetch, select)
    ensures AnyAlerts(rows) <==> SomeAlert(ps, fetch, select)
  {
    if AnyAlerts(rows) {
      var i :| 0 <= i < |rows| && Alerts(rows[i]);
      assert Alerts(Observe(ps[i], fetch, select));
    }
    if SomeAlert(ps, fetch, select) {
      var i :| 0 <= i < |ps| && Alerts(Observe(ps[i], fetch, select));
      assert Alerts(rows[i]);
    }
  }

  // ---------------------------------------------------------------------
  // What the statuses and alerts mean
  // ---------------------------------------------------------------------

  /** Only the `ok` status reads as "ok", so the `status != "ok"` test of
      `run_once` singles out successful checks exactly. */
  lemma StatusTextOk(s: Status)
    ensures StatusText(s) == "ok" <==> s == Ok
  {
    match s
    case Ok =>
    case FetchError(cause) =>
      assert StatusText(s)[0] == 'f';
    case SelectorNotFound =>
    case ParseFailed =>
  }

  /** Different statuses are recorded as different texts. */
  lemma StatusTextInjective(s1: Status, s2: Status)
    ensures StatusText(s1) == StatusText(s2) ==> s1 == s2
  {
    if StatusText(s1) == StatusText(s2) {
      var prefix := "fetch_error: ";
      if s1.FetchError? && s2.FetchError? {
        assert s1.cause == StatusText(s1)[|prefix|..];
        assert s2.cause == StatusText(s2)[|prefix|..];
      } else {
        assert StatusText(s1)[0] == StatusText(s2)[0];
        assert StatusText(s1)[|StatusText(s1)| - 1] == StatusText(s2)[|StatusText(s2)| - 1];
      }
    }
  }

  /** The four outcomes of a check, in the order the source tests them,
      and the price of a successful one: the reference value of the text. */
  lemma FetchPriceOutcomes(url: string, selector: string, fetch: Fetch, select: Select, r: Check, text: Option<string>)
    requires r == FetchPrice(url, selector, fetch, select) && text == PriceTextOf(url, selector, fetch, select)
    ensures fetch(url).Failure? ==> r == Check(None, FetchError(fetch(url).error))
    ensures r.status.FetchError? ==> fetch(url).Failure?
    ensures fetch(url).Success? && text.None? <==> r == Check(None, SelectorNotFound)
    ensures text.Some? && ParsePrice(text).None? <==> r == Check(None, ParseFailed)
    ensures r.status == Ok <==> text.Some? && ParsePrice(text).Some?
    ensures r.status == Ok ==> r.price == Reference(text.value) && r.price.Some?
  {
    if text.Some? {
      ParsePriceSound(text.value);
    }
  }

  /** A product raises an alert exactly when its page and element were
      found, the text has a price -- its reference value -- and a target at
      or above that price was given. */
  lemma AlertMeaning(p: Product, fetch: Fetch, select: Select)
    ensures Alerts(Observe(p, fetch, select)) <==>
      var text := PriceTextOf(p.url, p.selector, fetch, select);
      && text.Some? && ParsePrice(text).Some? && p.target.Some?
      && Reference(text.value).Some? && Reference(text.value).value.Value() <= p.target.value
  {
    var text := PriceTextOf(p.url, p.selector, fetch, select);
    FetchPriceOutcomes(p.url, p.selector, fetch, select, FetchPrice(p.url, p.selector, fetch, select), text);
  }

  /** The row of a product records a price exactly when its element was
      found and its text parses, and that price is the reference value of
      the text; a failed row names the step that failed. */
  lemma ObserveMeaning(p: Product, fetch: Fetch, select: Select)
    ensures var o, text := Observe(p, fetch, select), PriceTextOf(p.url, p.selector, fetch, select);
      && (o.status == Ok <==> text.Some? && ParsePrice(text).Some?)
      && (o.status == Ok ==> o.price == Reference(text.value))
      && (o.status.FetchError? <==> fetch(p.url).Failure?)
      && (o.status == SelectorNotFound <==> fetch(p.url).Success? && text.None?)
  {
    var text := PriceTextOf(p.url, p.selector, fetch, select);
    FetchPriceOutcomes(p.url, p.selector, fetch, select, FetchPrice(p.url, p.selector, fetch, select), text);
  }

  /** A product without a target never raises an alert. */
  lemma NoTargetNoAlert(p: Product, fetch: Fetch, select: Select)
    requires p.target.None?
    ensures !Alerts(Observe(p, fetch, select))
  {
  }

  /** Every run records one row per product, whatever the checks find,
      and a run that records nothing had no products. */
  lemma RunRecordsEveryProduct(ps: seq<Product>, fetch: Fetch, select: Select, history: seq<Observation>)
    requires ps != []
    ensures var r := RunOnce(Some(ps), fetch, select, history);
      && r.outcome.Checked?
      && |r.history| == |history| + |ps|
      && forall i :: 0 <= i < |ps| ==>
           r.history[|history| + i].url == ps[i].url && r.history[|history| + i].name == DisplayName(ps[i])
  {
    var r := RunOnce(Some(ps), fetch, select, history);
    forall i | 0 <= i < |ps|
      ensures r.history[|history| + i].url == ps[i].url && r.history[|history| + i].name == DisplayName(ps[i])
    {
      assert r.history[|history| + i] == Observe(ps[i], fetch, select);
    }
  }
}

=== FILE: wrappers.dfy ===
/** Failure-carrying wrappers used across the model. */
module Wrappers {

  /** A value that may be absent: Python's `None` versus a present value. */
  datatype Option<+T> = None | Some(value: T)

  /** The outcome of an operation that can fail with an error value. */
  datatype Result<+T, +E> = Success(value: T) | Failure(error: E)
}
